=== FILE: README.md ===
# Player ExposureEngine: a verified model of its deterministic core

The ExposureEngine asks a hosted language model how visible a youth soccer
player is to college coaches at each division: NCAA D1, D2, D3, NAIA and JUCO.
The scoring itself is prose handed to that model. The code the repository
actually runs is the deterministic work around that call, and this project
models and proves properties of that code:

- **the answer normaliser** (`GeminiService`): it clamps percentages, cleans
  level names, fills in missing levels, coerces the readiness scores and
  defaults the list fields;
- **the report shaping rules** (`AnalysisView`, with the stable sort in
  `StableSort`): the division order of the chart, the coach view's best level,
  the video-first action plan of at most five items, and the impact and
  probability classifiers;
- **the endpoint's guards** (`AnalyzeApi`): the per-IP fixed-window rate
  limiter and its cleanup pass, the ordered profile validation, and the
  handler's 405 / 429 / 400 order;
- **the form's state updaters** (`PlayerForm`): the league and secondary
  position toggles, and adding, removing and editing seasons and events, and
  the grad-year field.

`Types` holds the records and constant tables. `Text` holds the JavaScript
string operations the core uses (`trim`, the `/NCAA\s*/i` replacement,
`toLowerCase`, `includes` and `parseInt`). `Wrappers` holds `Option` and
`Result`.

The state the source changes in place is modelled imperatively:

- the action plan that `finalActionPlan` rewrites;
- the filler loop and the readiness loop of `validateAndNormalize`;
- the rate-limit map, as a `RateLimiter` class whose `entries` field the
  methods reassign.

Each method is proved against a pure function. That function's properties
are proved as lemmas: `Step`/`Run` for the limiter, `Sweep` for the cleanup,
and `Fillers` for the level loop.

The remaining code builds fresh values, and is modelled as functions. The
form updaters are functions from the previous profile to the next, as the
component's `setProfile(prev => ...)` callbacks are.

The clock (`Date.now()`) becomes a parameter `now`, and the serialised size
of a profile (`JSON.stringify(profile).length`) becomes a parameter
`serializedSize`.

## Model

| member | source | states |
|---|---|---|
| Types.ParseLevel | types.ts:13 | the level named exactly `s`: the result's name is `s`, and every level whose name is `s` is found |
| Types.LevelNamesOfLevels | services/geminiService.ts:8 | the level-name table lists the names of the five levels, in the same order |
| Types.LeaguesComplete | constants.ts:4-13 | the league table lists every league exactly once |
| Text.Trim | services/geminiService.ts:22 | the result is the middle of the input with only whitespace cut from either end; it has no whitespace at either end; it is empty exactly when the input is all whitespace; input without outer whitespace is returned unchanged |
| Text.TrimPadded | components/AnalysisResult.tsx:57 | a name without outer whitespace, padded with any whitespace on both sides, trims to the name |
| Text.TrimIdempotent | components/AnalysisResult.tsx:57 | trimming a trimmed string changes nothing |
| Text.FindNcaa | components/AnalysisResult.tsx:57 | the leftmost case-insensitive match of "NCAA", or none when there is no match anywhere |
| Text.StripNcaa | services/geminiService.ts:22 | without a match the string is unchanged; with one at `i`, the result is the text before `i` followed by the text after the match and the whole whitespace run that follows it |
| Text.NormalizeLevel | components/AnalysisResult.tsx:55-58 | the cleaned level has no outer whitespace and is never longer than the input; with no match it is the trimmed input; with a match it is at least four characters shorter |
| Text.NormalizeLevelRemoves | components/AnalysisResult.tsx:55-58 | wherever the first case-insensitive "NCAA" stands, it and the whitespace after it are removed and the rest is trimmed |
| Text.NormalizeLevelKeeps | components/AnalysisResult.tsx:55-58 | a name with no "NCAA" and no outer whitespace (the empty name included) is left as it is |
| Text.NormalizeLevelPadded | services/geminiService.ts:22 | a name without "NCAA", padded with whitespace, normalises to the bare name |
| Text.NormalizeLevelBlank | components/AnalysisResult.tsx:56-57 | an empty or blank level normalises to "" |
| Text.NormalizeLevelStrips | services/geminiService.ts:22 | "NCAA" in any case, then whitespace, then a name normalises to that name (so "NCAA D1" becomes "D1") |
| Text.ToLower | components/AnalysisResult.tsx:80 | same length; each ASCII capital becomes its lower-case letter and every other character is kept |
| Text.IndexOfFrom | components/AnalysisResult.tsx:80 | the first occurrence of `k` at or after `from`, or none when there is no occurrence there |
| Text.Includes | components/AnalysisResult.tsx:80 | `includes` holds exactly when the keyword occurs at some position of the text |
| Text.ParseInt | components/PlayerInputForm.tsx:378 | `parseInt` without a radix: NaN (`None`) unless some digit was read |
| Text.ParseIntNatToString | components/PlayerInputForm.tsx:378-379 | the decimal text of a non-negative integer parses back to that integer, in exact integers (the program's double is exact below 2^53) |
| Text.ParseIntEmpty | components/PlayerInputForm.tsx:378-379 | every empty or all-whitespace field parses to NaN |
| GeminiService.Clamp | services/geminiService.ts:11-13 | the result lies in [min, max] when min <= max, is `val` when `val` is already in range, and is always one of val, min and max |
| GeminiService.ClampIdempotent | services/geminiService.ts:11-13 | clamping twice gives the same as clamping once |
| GeminiService.NormalizePercent | services/geminiService.ts:23 | the stored percentage is in [0, 100]; a missing one becomes 0; an in-range one is kept; values below or above the range go to 0 or 100 |
| GeminiService.NormalizeEntry | services/geminiService.ts:20-24 | the level is the raw level (or "") after the NCAA clean-up, so a missing level becomes "" and a clean one is kept; the percentage is in [0, 100] and an in-range one is kept; the notes are kept |
| GeminiService.NormalizeEntries | services/geminiService.ts:20-24 | the same number of entries, each normalised in place |
| GeminiService.Fillers | services/geminiService.ts:26-31 | every filler is for a level of the table that the entries lack, with percent 0 and notes "Not evaluated" |
| GeminiService.Filler | services/geminiService.ts:29 | the pushed entry carries the missing level, percent 0 (a value the clamp keeps) and notes "Not evaluated" |
| GeminiService.FillersExactlyMissing | services/geminiService.ts:27-31 | a level gets a filler exactly when it is in the table and no entry has it |
| GeminiService.AllLevelsMeansFive | services/geminiService.ts:200-203 | a list holding all five level names has at least five entries |
| GeminiService.EnsureAllLevels | services/geminiService.ts:26-31 | the loop keeps the given entries in front, in order, then appends exactly the fillers for the missing levels in table order; every level is then present and there are at least five entries |
| GeminiService.RawField | services/geminiService.ts:34-38 | a bare number stands for every key; an object gives its value under the key, or nothing when the key is missing; a falsy value gives no key |
| GeminiService.ReadinessValue | services/geminiService.ts:40 | each score lies in [0, 100]; a missing or zero score becomes 50; an in-range one is kept |
| GeminiService.NormalizeReadiness | services/geminiService.ts:33-41 | all five keys are present, each holding the clamped value of its raw field; a bare number gives the same value at every key; a supplied value in (0, 100] is kept and a key the object lacks becomes 50 |
| GeminiService.ValidateAndNormalize | services/geminiService.ts:15-60 | at least five visibility entries, every level present, every percentage in [0, 100]; the given entries come first and then the fillers; readiness as above; non-array lists become []; a missing funnel becomes the default with stage "Invisible"; missing strings become "" |
| GeminiService.NormalizeAndCheck | services/geminiService.ts:197-205 | after normalisation the "Incomplete visibility scores" error is never raised |
| StableSort.SortDesc | components/AnalysisResult.tsx:61-66 | the sort is a permutation of its input, in non-increasing key order |
| StableSort.SortDescStable | components/AnalysisResult.tsx:61-66 | for every key value, the elements with that key keep their input order |
| StableSort.KeepFirst | components/AnalysisResult.tsx:72-73 | the first element with a given key is the one at the first position holding that key |
| AnalysisView.LevelRank | components/AnalysisResult.tsx:62 | every level ranks between 1 and 5 |
| AnalysisView.Rank | components/AnalysisResult.tsx:62-64 | the rank is at most 5; it is 0 exactly when the normalised level is not one of the five names, and the level's own rank when the normalised level is that level's name |
| AnalysisView.RankWithNcaa | components/AnalysisResult.tsx:62-64 | a level written as "NCAA" in any case, whitespace and the level's name ranks as that level (so "NCAA D1" ranks 5) |
| AnalysisView.LevelNameNormalized | components/AnalysisResult.tsx:55-58 | a level's own name is already normalised |
| AnalysisView.LevelRankOrder | components/AnalysisResult.tsx:62 | the levels, in table order, have strictly falling ranks (D1 > D2 > D3 > NAIA > JUCO) |
| AnalysisView.RankOfName | components/AnalysisResult.tsx:62-64 | each level's name ranks as that level |
| AnalysisView.SortedVisibility | components/AnalysisResult.tsx:61-66 | the chart holds the same entries as the input, in non-increasing rank |
| AnalysisView.SortedVisibilitySpec | components/AnalysisResult.tsx:61-66 | the chart holds the same entries, in non-increasing rank, so unrecognised levels (rank 0) are last; entries of equal rank keep their input order |
| AnalysisView.FirstMaxIndex | components/AnalysisResult.tsx:72-73 | reference: the first entry that no other entry's percentage exceeds |
| AnalysisView.BestLevel | components/AnalysisResult.tsx:72-73 | there is no best level exactly when the list is empty |
| AnalysisView.BestLevelIsFirstMax | components/AnalysisResult.tsx:72-73 | the best level is the first entry with the highest percentage |
| AnalysisView.BestLevelLabel | components/AnalysisResult.tsx:220 | the best level's name when there is a best level with a non-empty name, and "N/A" otherwise (for an empty list too) |
| AnalysisView.FirstVideoIndex | components/AnalysisResult.tsx:79-81 | the index of the first video item, if any: the item there is a video item and none before it is; with none, no item is a video item |
| AnalysisView.IsVideoItemIff | components/AnalysisResult.tsx:78-80 | an item is a video item exactly when one of "video", "highlight", "reel", "film", "footage" occurs somewhere in its lower-cased description |
| AnalysisView.InjectedVideoItem | components/AnalysisResult.tsx:85-91 | the injected item is due in the next 30 days with high impact, and both of its texts contain "video", so it is itself a video item |
| AnalysisView.MoveToFront | components/AnalysisResult.tsx:95-96 | `splice` then `unshift`: the same items, the moved one first, items before it shifted by one, items after it in place |
| AnalysisView.PrependedPlan | components/AnalysisResult.tsx:92-99 | a video item put in front of the list, then cut to five, is that item followed by the first four items |
| AnalysisView.MovedPlan | components/AnalysisResult.tsx:93-99 | moving a video item to the front and cutting to five gives at most five items, a video item first, all taken from the input |
| AnalysisView.FinalActionPlan | components/AnalysisResult.tsx:76-100 | 1 to 5 items with a video item first. With no video item: the injected item, then the first four inputs. With one first already: the input cut to five. Otherwise the first video item moves to the front, the rest keep their order, cut to five. Every later item comes from the input |
| AnalysisView.GetImpactBadge | components/AnalysisResult.tsx:103-124 | "High" and "Medium" get their own icon and label; every other string gets the low badge, in both directions |
| AnalysisView.GetProbabilityStatus | components/AnalysisResult.tsx:127-132 | "very low" exactly below 25, "low" exactly in [25, 50), "medium" exactly in [50, 75), "high" exactly from 75 |
| AnalysisView.ProbabilityStatusMonotone | components/AnalysisResult.tsx:127-132 | the status is the table entry of the score's band, and the band never falls as the score rises |
| AnalysisView.FirstIndexOf | components/AnalysisResult.tsx:354 | `find`: the first position holding `x`, and none exactly when `x` is absent |
| AnalysisView.NormalizedLevels | components/AnalysisResult.tsx:354 | the normalised level of each entry, position by position |
| AnalysisView.GridScore | components/AnalysisResult.tsx:353-355 | the percentage of the first entry whose normalised level is the column's, and 0 when no entry has it |
| AnalysisView.ProbabilityGrid | components/AnalysisResult.tsx:353-355 | five columns, each the status of its level's grid score |
| AnalysisView.AbsentLevelIsVeryLow | components/AnalysisResult.tsx:354-355 | a level absent from the results is graded "very low" |
| AnalyzeApi.Step | api/analyze.ts:259-273 | one call: a fresh or expired IP gets count 1 and a window ending one hour later, and is let through. A live IP's count goes up by one, its window end is kept, and it is limited exactly when the count exceeds 5. No other IP's entry changes |
| AnalyzeApi.Run | api/analyze.ts:259-273 | one answer per call, and the IP has an entry after any call |
| AnalyzeApi.RunInWindow | api/analyze.ts:268-272 | inside a live window the j-th call is limited exactly when count + j + 1 exceeds 5; the count grows by one per call, rejected calls included; the window end never moves |
| AnalyzeApi.FixedWindow | api/analyze.ts:256-272 | in a window opened by a fresh or expired entry, the first 5 calls pass and every later one is limited |
| AnalyzeApi.RunKeepsOthers | api/analyze.ts:255-273 | calls from one IP leave every other IP's entry and presence unchanged |
| AnalyzeApi.Sweep | api/analyze.ts:276-281 | the cleanup keeps exactly the entries with `now <= resetAt`, unchanged |
| AnalyzeApi.SweepInvisible | api/analyze.ts:259-281 | while the clock does not go back, a cleanup between calls changes no answer and no caller's entry |
| AnalyzeApi.SweepIdempotent | api/analyze.ts:276-281 | a second cleanup at the same time removes nothing more |
| AnalyzeApi.RateLimiter.constructor | api/analyze.ts:255 | the map starts empty |
| AnalyzeApi.RateLimiter.IsRateLimited | api/analyze.ts:259-273 | the new map and the answer are those of `Step` on the old map |
| AnalyzeApi.RateLimiter.Cleanup | api/analyze.ts:276-281 | the deletion loop leaves the map equal to `Sweep` of the old map |
| AnalyzeApi.RateLimiter.Handle | api/analyze.ts:398-421 | a non-POST gets 405 and leaves the map unchanged; a POST is counted by the limiter first, then dispatched on its answer and the validation result |
| AnalyzeApi.TypeOf | api/analyze.ts:285-292 | `typeof` is "string", "number" or "object" exactly for strings, numbers, and null, arrays and objects |
| AnalyzeApi.Get | api/analyze.ts:286-292 | a missing property, or a property of a non-object, reads as undefined |
| AnalyzeApi.ValidateProfile | api/analyze.ts:284-300 | the early-return chain reports the message of the first failing check, in the order object, first name, last name, gender, position, grad year, size |
| AnalyzeApi.FirstFailure | api/analyze.ts:285-297 | reference: no failure exactly when every check passes; otherwise the failed check is the first failing one in check order |
| AnalyzeApi.Message | api/analyze.ts:285-297 | every check reports a non-empty message |
| AnalyzeApi.MessagesDistinct | api/analyze.ts:285-297 | no two checks report the same message |
| AnalyzeApi.ValidateProfileNamesCheck | api/analyze.ts:284-300 | the message returned is that of check `c` exactly when `c` is the first failing check |
| AnalyzeApi.ValidProfileIff | api/analyze.ts:284-300 | valid exactly when the body is an object, the names are non-empty strings of at most 100 characters, the gender is "Male" or "Female", the position is a non-empty string, the grad year is a number in 2020..2035, and the size is at most 10000 |
| AnalyzeApi.Dispatch | api/analyze.ts:400-421 | 405 exactly for non-POST; 429 exactly for a limited POST; 400 with the validation message exactly for an unlimited POST that fails validation; otherwise the request proceeds |
| PlayerForm.Without | components/PlayerInputForm.tsx:47 | `filter(l => l !== x)`: the same elements with every copy of `x` removed, and the list unchanged when `x` is absent |
| PlayerForm.WithoutSingle | components/PlayerInputForm.tsx:47 | on one element the filter keeps it exactly when it differs from `x` |
| PlayerForm.WithoutConcat | components/PlayerInputForm.tsx:47 | the filter of a concatenation is the concatenation of the filters, so the kept elements stay in their order |
| PlayerForm.ToggleLeague | components/PlayerInputForm.tsx:45-51 | a selected league is filtered out: every copy goes and the other leagues stay in their order; an unselected one is appended at the end |
| PlayerForm.ToggleLeagueTwice | components/PlayerInputForm.tsx:45-51 | toggling twice restores the set of leagues, and the exact list when the league was unselected |
| PlayerForm.ToggleSecondaryPosition | components/PlayerInputForm.tsx:164-173 | only the secondaries change; a present position is filtered out, the others keeping their order; an absent one is appended only while fewer than two are selected; with two selected the profile is returned unchanged |
| PlayerForm.ToggleSecondaryKeepsLimit | components/PlayerInputForm.tsx:166-171 | from at most two distinct secondaries, a toggle keeps at most two, all distinct |
| PlayerForm.NewSeason | components/PlayerInputForm.tsx:188 | the new season's year is one before the given year |
| PlayerForm.AddSeason | components/PlayerInputForm.tsx:182-199 | exactly one season is appended (the year before the last, high school, 50% minutes, rotation, no goals, assists or honours); earlier seasons and every other field are unchanged |
| PlayerForm.DropIndex | components/PlayerInputForm.tsx:204 | the filter never lengthens the list |
| PlayerForm.DropIndexSpec | components/PlayerInputForm.tsx:201-229 | with an in-range index exactly that element is dropped and the rest keep their order; with any other index the list is unchanged |
| PlayerForm.RemoveSeason | components/PlayerInputForm.tsx:201-206 | only the seasons change: the one at the index is dropped, the rest keep their order; an out-of-range index changes nothing |
| PlayerForm.RemoveEvent | components/PlayerInputForm.tsx:224-229 | only the events change: the one at the index is dropped, the rest keep their order; an out-of-range index changes nothing |
| PlayerForm.EditSeason | components/PlayerInputForm.tsx:178 | the named field takes the value and every other field of the season is kept |
| PlayerForm.UpdateSeason | components/PlayerInputForm.tsx:175-180 | only the seasons change; the length is kept; the edited season is the old one with one field changed; every other season is unchanged |
| PlayerForm.EditEvent | components/PlayerInputForm.tsx:220 | the named field takes the value and every other field of the event is kept |
| PlayerForm.UpdateEvent | components/PlayerInputForm.tsx:218-222 | only the events change; the length is kept; the edited event is the old one with one field changed; every other event is unchanged |
| PlayerForm.AddEvent | components/PlayerInputForm.tsx:208-216 | exactly one empty showcase is appended; earlier events and every other field are unchanged |
| PlayerForm.EditGradYear | components/PlayerInputForm.tsx:377-382 | non-numeric text becomes 0, numeric text its value; both `gradYear` and `academics.graduationYear` get it and nothing else changes |
| PlayerForm.EditGradYearDigits | components/PlayerInputForm.tsx:377-382 | a typed year is stored as that year in both places, in exact integers (the program's double is exact below 2^53) |
| PlayerForm.Apply | components/PlayerInputForm.tsx:164-229 | every action the form offers, the primary-position select and the mock-data button included, keeps the invariant (seasons non-empty; secondaries distinct and at most two); the select sets only the primary position, the mock button writes the mock profile, and every other action keeps the primary position |
| PlayerForm.Replay | components/PlayerInputForm.tsx:126-137 | a run of offered actions keeps the invariant; one made only of secondary toggles of table positions other than the primary, adds and grad-year edits is always offered |
| PlayerForm.AddSeasonAlwaysDefined | components/PlayerInputForm.tsx:623-631 | the initial profile has a season, and so does every profile reached by offered actions: `addSeason` always has a last season to read |
| PlayerForm.MockSecondariesOutsideTable | components/PlayerInputForm.tsx:231-281 | the mock profile meets the invariant, but its secondaries "DM" and "AM" are not among the positions the form lists |
| PlayerForm.PrimaryShadowsSecondary | components/PlayerInputForm.tsx:496-519 | choosing a selected secondary as primary keeps it as a secondary, and no secondary button the form then shows removes it |
| PlayerForm.PrimaryEqualsSecondaryReachable | components/PlayerInputForm.tsx:496-519 | from the initial form, ticking "CB" and then choosing "CB" as primary gives primary "CB" with secondaries ["CB"] |

## Left out

- The scoring rubric sent to the model (api/analyze.ts:7-252) is prose that a hosted model interprets, not code. Its multipliers are floating point.
- The model calls are not modelled: the Gemini client, the retry loops, `JSON.parse`, the response schemas and the 500/502 error paths are foreign calls and static data.
- `Date.now()` and `setInterval` are not modelled. The clock is the parameter `now`, and `Cleanup` is one run of the interval callback.
- Header parsing of the client IP and the `process.env` key check are not modelled. The IP is a parameter.
- `JSON.stringify(profile).length` is not computed. It is the parameter `serializedSize`.
- NaN is not modelled. A percentage or readiness value is a `real` or missing, and a grad year is an `int`, so NaN passing the grad-year range test is not captured. The season year and minutes inputs (`parseInt` with no `|| 0`) are edits to an `int`, so the NaN a cleared input stores there is not captured either.
- Text.ParseInt, Text.ParseIntNatToString, PlayerForm.EditGradYearDigits: JavaScript numbers are doubles, exact only below 2^53, while the model's integers are exact. Above 2^53 the program rounds the parsed value (`parseInt("9007199254740993")` is 9007199254740992), and from 10^21 `String(n)` writes exponent form, which `parseInt` reads only up to the "e". The model stores every typed value exactly.
- Non-numeric percentages from the model, and values of unexpected types, are not modelled.
- RawResult: only the fields the normaliser touches are modelled. Further raw fields that the `...raw` spread passes through, and extra keys of a raw readiness object, are not.
- NormalizeReadiness: a truthy non-number, non-object `readinessScore` (for example a string) is not modelled.
- String lengths count Unicode scalars. JavaScript's `.length` counts UTF-16 code units, so a 100-character limit differs for characters outside the Basic Multilingual Plane.
- Text.ParseInt: its own contract states only that a number needs a digit in the text. The value it reads is stated by Text.ParseIntNatToString for decimal text, and not for signed or hexadecimal input.
- Text.ToLower: only ASCII capitals are lower-cased. JavaScript's `toLowerCase` also folds non-ASCII letters.
- AnalysisView.Rank: the `order` lookup of an object literal also answers for inherited keys such as "constructor". Rank treats every name other than the five as rank 0.
- AnalysisView.BestLevel: it is modelled over finite percentages. A comparator that returns NaN is not modelled.
- The component defaults `result.x || []` of the analysis view are not modelled. The view's functions take the normalised lists.
- UpdateSeason, UpdateEvent: the source copies the list from the `profile` of the current render, not from `prev`. Two updates queued in one render would lose the first. The model applies each edit to the previous profile.
- UpdateSeason, UpdateEvent: they require an in-range index, which is what the rendered controls pass. An out-of-range write that would grow a sparse array is not modelled.
- ToggleSecondaryPosition: the `|| []` fallback for a missing `secondaryPositions` is not modelled. The list is always present here.
- The other form handlers (`handleInputChange` for fields other than the primary position, and the height conversion with its floating-point rounding), the feet and inches that `fillMockData` also sets, the click-outside listener and all JSX rendering are not modelled.
- The app shell (theme, localStorage, referral capture, the Supabase and Brevo lead sync), the Supabase client, the header component and the build configuration are not modelled.
- Types.POSITIONS: the form's position names (LB, RB, CDM, CAM, LW, RW, ST, …) differ from the `Position` union in types.ts (FB, WB, DM, AM, WING, 9, Utility, …), so a position is kept as a string.

=== FILE: analysis_view.dfy ===
/**
 * The report-shaping rules of components/AnalysisResult.tsx: the division
 * order of the chart, the coach view's best level, the video-first action
 * plan and the threshold classifiers.
 */
module AnalysisView {
  import opened Wrappers
  import opened Types
  import opened Text
  import opened StableSort

  // ---------------------------------------------------------------------------
  // Division rank and the stable sort of the chart (lines 61-66)

  /** The `order` table: D1 5, D2 4, D3 3, NAIA 2, JUCO 1. */
  function LevelRank(l: CollegeLevel): (r: nat)
    ensures 1 <= r <= 5
  {
    match l
    case D1 => 5
    case D2 => 4
    case D3 => 3
    case NAIA => 2
    case JUCO => 1
  }

  /** `order[normalizeLevel(level)] || 0`: unrecognised levels rank 0. */
  function Rank(level: string): (r: nat)
    ensures r <= 5
    ensures r == 0 <==> ParseLevel(NormalizeLevel(level)).None?
    ensures forall l: CollegeLevel :: NormalizeLevel(level) == l.Name() ==> r == LevelRank(l)
  {
    match ParseLevel(NormalizeLevel(level))
    case None => 0
    case Some(l) => LevelRank(l)
  }

  /** A level's own name is already normalised. */
  lemma LevelNameNormalized(l: CollegeLevel)
    ensures NormalizeLevel(l.Name()) == l.Name()
  {
    match l
    case D1 => assert FindNcaa("D1") == None; NormalizeLevelKeeps("D1");
    case D2 => assert FindNcaa("D2") == None; NormalizeLevelKeeps("D2");
    case D3 => assert FindNcaa("D3") == None; NormalizeLevelKeeps("D3");
    case NAIA => assert FindNcaa("NAIA") == None; NormalizeLevelKeeps("NAIA");
    case JUCO => assert FindNcaa("JUCO") == None; NormalizeLevelKeeps("JUCO");
  }

  /** LEVELS is listed in strictly falling rank. */
  lemma LevelRankOrder()
    ensures forall i, j :: 0 <= i < j < |LEVELS| ==> LevelRank(LEVELS[i]) > LevelRank(LEVELS[j])
  {
  }

  /** A level's own name ranks as that level. */
  lemma RankOfName(l: CollegeLevel)
    ensures Rank(l.Name()) == LevelRank(l)
  {
    LevelNameNormalized(l);
    assert ParseLevel(l.Name()) == Some(l);
  }

  /** A level written with "NCAA" in any case and whitespace in front ranks as that level. */
  lemma RankWithNcaa(ncaa: string, ws: string, l: CollegeLevel)
    requires |ncaa| == 4 && NcaaAt(ncaa, 0)
    requires forall i :: 0 <= i < |ws| ==> IsWhite(ws[i])
    ensures Rank(ncaa + ws + l.Name()) == LevelRank(l)
  {
    var name := l.Name();
    assert !IsWhite(name[0]) && !IsWhite(name[|name| - 1]) by {
      match l
      case D1 => case D2 => case D3 => case NAIA => case JUCO =>
    }
    NormalizeLevelStrips(ncaa, ws, name);
  }

  /** The chart's sort key. */
  function RankKey(v: VisibilityScore): real { Rank(v.level) as real }

  /** The best-level sort key. */
  function PercentKey(v: VisibilityScore): real { v.visibilityPercent }

  /** `sortedVisibility`, the chart's order. */
  function SortedVisibility(vis: seq<VisibilityScore>): (r: seq<VisibilityScore>)
    ensures multiset(r) == multiset(vis)
    ensures forall i, j :: 0 <= i < j < |r| ==> Rank(r[i].level) >= Rank(r[j].level)
  {
    var r := SortDesc(vis, RankKey);
    assert forall i, j :: 0 <= i < j < |r| ==> RankKey(r[i]) >= RankKey(r[j]);
    r
  }

  /**
   * The chart lists the same entries, D1 first and unrecognised levels last,
   * and entries of equal rank in their input order.
   */
  lemma SortedVisibilitySpec(vis: seq<VisibilityScore>)
    ensures multiset(SortedVisibility(vis)) == multiset(vis)
    ensures forall i, j :: 0 <= i < j < |vis| ==> Rank(SortedVisibility(vis)[i].level) >= Rank(SortedVisibility(vis)[j].level)
    ensures forall k: real :: Keep(SortedVisibility(vis), RankKey, k) == Keep(vis, RankKey, k)
  {
    var r := SortedVisibility(vis);
    forall i, j | 0 <= i < j < |vis| ensures Rank(r[i].level) >= Rank(r[j].level) {
      assert RankKey(r[i]) >= RankKey(r[j]);
    }
    forall k: real ensures Keep(r, RankKey, k) == Keep(vis, RankKey, k) {
      SortDescStable(vis, RankKey, k);
    }
  }

  // ---------------------------------------------------------------------------
  // The coach view's best level (lines 72-73, 220)

  /** The reference: the first entry whose percentage no other entry exceeds. */
  function FirstMaxIndex(vis: seq<VisibilityScore>): (i: nat)
    requires |vis| > 0
    ensures i < |vis|
    ensures forall j :: 0 <= j < |vis| ==> vis[j].visibilityPercent <= vis[i].visibilityPercent
    ensures forall j :: 0 <= j < i ==> vis[j].visibilityPercent < vis[i].visibilityPercent
  {
    if |vis| == 1 then 0
    else
      var k := FirstMaxIndex(vis[..|vis| - 1]);
      if vis[|vis| - 1].visibilityPercent > vis[k].visibilityPercent then |vis| - 1 else k
  }

  /** `[...visibilityScores].sort((a, b) => b.visibilityPercent - a.visibilityPercent)[0]`. */
  function BestLevel(vis: seq<VisibilityScore>): (r: Option<VisibilityScore>)
    ensures r.None? <==> vis == []
  {
    var sorted := SortDesc(vis, PercentKey);
    if sorted == [] then None else Some(sorted[0])
  }

  /** The best level is the first of the entries with the highest percentage, and exists unless the list is empty. */
  lemma BestLevelIsFirstMax(vis: seq<VisibilityScore>)
    requires vis != []
    ensures BestLevel(vis) == Some(vis[FirstMaxIndex(vis)])
  {
    var sorted := SortDesc(vis, PercentKey);
    var i := FirstMaxIndex(vis);
    var m := vis[i].visibilityPercent;
    assert sorted[0] in multiset(vis);
    assert vis[i] in multiset(sorted);
    var j :| 0 <= j < |sorted| && sorted[j] == vis[i];
    assert PercentKey(sorted[0]) >= PercentKey(sorted[j]);
    assert sorted[0].visibilityPercent == m;
    SortDescStable(vis, PercentKey, m);
    KeepFirst(vis, PercentKey, i);
    KeepFirst(sorted, PercentKey, 0);
  }

  /** The coach view prints the best level's name, or "N/A" for none or an empty name. */
  function BestLevelLabel(vis: seq<VisibilityScore>): (r: string)
    ensures vis == [] ==> r == "N/A"
    ensures vis != [] && BestLevel(vis).value.level != "" ==> r == BestLevel(vis).value.level
    ensures vis != [] && BestLevel(vis).value.level == "" ==> r == "N/A"
    ensures r != ""
  {
    match BestLevel(vis)
    case None => "N/A"
    case Some(v) => if v.level == "" then "N/A" else v.level
  }

  // ---------------------------------------------------------------------------
  // The video-first action plan (lines 76-100, 523-524)

  const VIDEO_KEYWORDS: seq<string> := ["video", "highlight", "reel", "film", "footage"]

  /** `videoKeywords.some(k => item.description.toLowerCase().includes(k))`. */
  predicate IsVideoItem(item: ActionItem) {
    exists i :: 0 <= i < |VIDEO_KEYWORDS| && Includes(ToLower(item.description), VIDEO_KEYWORDS[i])
  }

  /**
   * An item is a video item exactly when one of the five keywords occurs
   * somewhere in its lower-cased description.
   */
  lemma IsVideoItemIff(item: ActionItem)
    ensures IsVideoItem(item) <==>
      exists i: nat, j: nat :: i < |VIDEO_KEYWORDS| && OccursAt(ToLower(item.description), VIDEO_KEYWORDS[i], j)
  {
  }

  /** `plan.findIndex(isVideo)`. */
  function FirstVideoIndex(plan: seq<ActionItem>): (r: Option<nat>)
    ensures r.Some? ==> r.value < |plan| && IsVideoItem(plan[r.value])
    ensures r.Some? ==> forall j :: 0 <= j < r.value ==> !IsVideoItem(plan[j])
    ensures r.None? ==> forall j :: 0 <= j < |plan| ==> !IsVideoItem(plan[j])
  {
    if plan == [] then None
    else if IsVideoItem(plan[0]) then Some(0)
    else match FirstVideoIndex(plan[1..])
      case None => None
      case Some(k) => Some(k + 1)
  }

  // The two injected descriptions, each written around its word "video".
  const OPTIMIZE_BEFORE := "Optimize your highlight "
  const OPTIMIZE_AFTER := ". Coaches spend 30s avg on a reel. Ensure your first 4 clips are undeniable 'Elite' moments. Remove fluff and music intros."
  const OPTIMIZE_VIDEO := OPTIMIZE_BEFORE + "video" + OPTIMIZE_AFTER
  const CREATE_BEFORE := "URGENT: Create a highlight "
  const CREATE_AFTER := ". You cannot be recruited without one. Record your next 3 matches and produce a 3-5 minute reel immediately."
  const CREATE_VIDEO := CREATE_BEFORE + "video" + CREATE_AFTER

  /**
   * The item injected when the plan has no video item; its text depends on
   * whether a video exists, and both texts contain "video", so the injected
   * item is itself a video item.
   */
  function InjectedVideoItem(videoLink: bool): (r: ActionItem)
    ensures r.timeframe == Next_30_Days && r.impact == "High"
    ensures IsVideoItem(r)
    ensures Includes(r.description, "video")
  {
    var item := ActionItem(Next_30_Days, if videoLink then OPTIMIZE_VIDEO else CREATE_VIDEO, "High");
    if videoLink then
      AroundVideo(item, OPTIMIZE_BEFORE, OPTIMIZE_AFTER);
      item
    else
      AroundVideo(item, CREATE_BEFORE, CREATE_AFTER);
      item
  }

  /** An occurrence of an all-lower-case word survives lower-casing. */
  lemma OccursLower(s: string, k: string, i: nat)
    requires OccursAt(s, k, i)
    requires forall j :: 0 <= j < |k| ==> !('A' <= k[j] <= 'Z')
    ensures OccursAt(ToLower(s), k, i)
  {
    var t := ToLower(s);
    forall j | 0 <= j < |k| ensures t[i..i + |k|][j] == k[j] {
      assert s[i..i + |k|][j] == s[i + j];
    }
  }

  /** A description written around the word "video" makes a video item. */
  lemma AroundVideo(item: ActionItem, before: string, after: string)
    requires item.description == before + "video" + after
    ensures IsVideoItem(item)
    ensures Includes(item.description, "video")
  {
    var d := item.description;
    OccursBetween(before, "video", after);
    IncludesAt(d, "video", |before|);
    OccursLower(d, "video", |before|);
    IncludesAt(ToLower(d), "video", |before|);
    assert VIDEO_KEYWORDS[0] == "video";
  }

  function Min(a: int, b: int): int { if a < b then a else b }

  /** `splice(i, 1)` then `unshift` of the removed item: the same items, with `s[i]` first. */
  function MoveToFront<T>(s: seq<T>, i: nat): (r: seq<T>)
    requires i < |s|
    ensures |r| == |s| && r[0] == s[i]
    ensures multiset(r) == multiset(s)
    ensures forall j :: 0 < j <= i ==> r[j] == s[j - 1]
    ensures forall j :: i < j < |s| ==> r[j] == s[j]
  {
    assert s == s[..i] + [s[i]] + s[i + 1..];
    [s[i]] + (s[..i] + s[i + 1..])
  }

  /** At most five items, starting with a video item, taken from `plan`. */
  predicate FivePlan(result: seq<ActionItem>, plan: seq<ActionItem>)
  {
    1 <= |result| <= 5 && IsVideoItem(result[0]) && result == plan[..Min(5, |plan|)]
  }

  /** The plan when no item is about video: the video item `x`, then the first four items. */
  lemma PrependedPlan(raw: seq<ActionItem>, x: ActionItem)
    requires IsVideoItem(x)
    ensures var plan := [x] + raw;
      FivePlan(plan[..Min(5, |plan|)], plan) &&
      plan[..Min(5, |plan|)] == [x] + raw[..Min(4, |raw|)] &&
      forall j :: 1 <= j < Min(5, |plan|) ==> plan[j] in raw
  {
    var plan := [x] + raw;
    assert plan[..Min(5, |plan|)] == [x] + raw[..Min(4, |raw|)];
    forall j | 1 <= j < Min(5, |plan|) ensures plan[j] in raw {
      assert plan[j] == raw[j - 1];
    }
  }

  /** The plan when the item at `i` is the first about video: that item first, the rest in order. */
  lemma MovedPlan(raw: seq<ActionItem>, i: nat)
    requires i < |raw| && IsVideoItem(raw[i])
    ensures var plan := MoveToFront(raw, i);
      FivePlan(plan[..Min(5, |plan|)], plan) &&
      forall j :: 0 <= j < |plan| ==> plan[j] in raw
  {
    var plan := MoveToFront(raw, i);
    forall j | 0 <= j < |plan| ensures plan[j] in raw {
      assert plan[j] in multiset(raw);
    }
  }

  /**
   * `finalActionPlan`: inject a video item at the top when there is none,
   * move the first video item to the top when it is not there, keep at most
   * five items.
   */
  method FinalActionPlan(rawActionPlan: seq<ActionItem>, videoLink: bool) returns (result: seq<ActionItem>)
    ensures 1 <= |result| <= 5
    ensures IsVideoItem(result[0])
    ensures FirstVideoIndex(rawActionPlan).None? ==>
      result == [InjectedVideoItem(videoLink)] + rawActionPlan[..Min(4, |rawActionPlan|)]
    ensures FirstVideoIndex(rawActionPlan) == Some(0) ==>
      result == rawActionPlan[..Min(5, |rawActionPlan|)]
    ensures FirstVideoIndex(rawActionPlan).Some? ==>
      result == MoveToFront(rawActionPlan, FirstVideoIndex(rawActionPlan).value)[..Min(5, |rawActionPlan|)]
    ensures forall j :: 1 <= j < |result| ==> result[j] in rawActionPlan
  {
    var plan := rawActionPlan;
    var videoIndex := FirstVideoIndex(plan);
    if videoIndex.None? {
      PrependedPlan(rawActionPlan, InjectedVideoItem(videoLink));
      plan := [InjectedVideoItem(videoLink)] + plan;
    } else {
      var i := videoIndex.value;
      MovedPlan(rawActionPlan, i);
      if i > 0 {
        var item := plan[i];
        plan := plan[..i] + plan[i + 1..];
        plan := [item] + plan;
        assert plan == MoveToFront(rawActionPlan, i);
      } else {
        assert MoveToFront(rawActionPlan, 0) == rawActionPlan;
      }
    }
    result := plan[..Min(5, |plan|)];
  }

  // ---------------------------------------------------------------------------
  // Classifiers (lines 103-132, 354-355)

  datatype BadgeIcon = TrendingUp | ActivityIcon | MinusIcon

  datatype ImpactBadge = ImpactBadge(color: string, icon: BadgeIcon, labelText: string)

  const HIGH_BADGE := ImpactBadge("text-amber-500 dark:text-amber-400 bg-amber-50 dark:bg-amber-500/10 border-amber-200 dark:border-amber-500/20", TrendingUp, "High Impact")
  const MEDIUM_BADGE := ImpactBadge("text-emerald-600 dark:text-emerald-400 bg-emerald-50 dark:bg-emerald-500/10 border-emerald-200 dark:border-emerald-500/20", ActivityIcon, "Med Impact")
  const LOW_BADGE := ImpactBadge("text-slate-500 dark:text-slate-400 bg-slate-100 dark:bg-slate-800/50 border-slate-200 dark:border-slate-700/50", MinusIcon, "Low Impact")

  /** `getImpactBadge`: "High" and "Medium" have badges of their own; every other string gets the low badge. */
  function GetImpactBadge(impact: string): (r: ImpactBadge)
    ensures r.icon == TrendingUp <==> impact == "High"
    ensures r.icon == ActivityIcon <==> impact == "Medium"
    ensures r.icon == MinusIcon <==> impact != "High" && impact != "Medium"
    ensures impact == "High" ==> r.labelText == "High Impact"
    ensures impact == "Medium" ==> r.labelText == "Med Impact"
    ensures impact != "High" && impact != "Medium" ==> r.labelText == "Low Impact"
  {
    if impact == "High" then HIGH_BADGE
    else if impact == "Medium" then MEDIUM_BADGE
    else LOW_BADGE
  }

  datatype ProbabilityStatus = ProbabilityStatus(labelText: string, color: string, textClass: string)

  /** The four statuses, from worst to best. */
  const STATUSES: seq<ProbabilityStatus> := [
    ProbabilityStatus("very low", "#ef4444", "text-red-500"),
    ProbabilityStatus("low", "#f97316", "text-orange-500"),
    ProbabilityStatus("medium", "#eab308", "text-yellow-600 dark:text-yellow-500"),
    ProbabilityStatus("high", "#10b981", "text-emerald-600 dark:text-emerald-500")
  ]

  /** `getProbabilityStatus`: the thresholds 25, 50 and 75. */
  function GetProbabilityStatus(score: real): (r: ProbabilityStatus)
    ensures r.labelText == "very low" <==> score < 25.0
    ensures r.labelText == "low" <==> 25.0 <= score < 50.0
    ensures r.labelText == "medium" <==> 50.0 <= score < 75.0
    ensures r.labelText == "high" <==> 75.0 <= score
  {
    if score < 25.0 then STATUSES[0]
    else if score < 50.0 then STATUSES[1]
    else if score < 75.0 then STATUSES[2]
    else STATUSES[3]
  }

  /** How many of the thresholds 25, 50, 75 the score reaches. */
  function Band(score: real): (b: nat)
    ensures b < |STATUSES|
  {
    (if score >= 25.0 then 1 else 0) + (if score >= 50.0 then 1 else 0) + (if score >= 75.0 then 1 else 0)
  }

  /** The status is a step function of the score: the entry of STATUSES for its band, never falling as the score rises. */
  lemma ProbabilityStatusMonotone(s1: real, s2: real)
    requires s1 <= s2
    ensures GetProbabilityStatus(s1) == STATUSES[Band(s1)]
    ensures GetProbabilityStatus(s2) == STATUSES[Band(s2)]
    ensures Band(s1) <= Band(s2)
  {
  }

  /** The first position of `x` in `s` (`findIndex` with an equality test). */
  function FirstIndexOf<X(==)>(s: seq<X>, x: X): (r: Option<nat>)
    ensures r.Some? ==> r.value < |s| && s[r.value] == x && forall j :: 0 <= j < r.value ==> s[j] != x
    ensures r.None? <==> x !in s
  {
    if s == [] then None
    else if s[0] == x then Some(0)
    else match FirstIndexOf(s[1..], x)
      case None => None
      case Some(k) => Some(k + 1)
  }

  /** The normalised level of each entry. */
  function NormalizedLevels(vis: seq<VisibilityScore>): (r: seq<string>)
    ensures |r| == |vis|
    ensures forall i :: 0 <= i < |vis| ==> r[i] == NormalizeLevel(vis[i].level)
  {
    seq(|vis|, i requires 0 <= i < |vis| => NormalizeLevel(vis[i].level))
  }

  /**
   * The percentage the probability grid shows for `lvl` (line 354): that of
   * the first entry whose normalised level is `lvl`, and 0 when there is none.
   */
  function GridScore(vis: seq<VisibilityScore>, lvl: string): (r: real)
    ensures lvl !in NormalizedLevels(vis) ==> r == 0.0
    ensures lvl in NormalizedLevels(vis) ==>
      var i := FirstIndexOf(NormalizedLevels(vis), lvl).value;
      NormalizeLevel(vis[i].level) == lvl && r == vis[i].visibilityPercent &&
      forall j :: 0 <= j < i ==> NormalizeLevel(vis[j].level) != lvl
  {
    match FirstIndexOf(NormalizedLevels(vis), lvl)
    case None => 0.0
    case Some(i) => vis[i].visibilityPercent
  }

  /** The grid's status for each of the five levels. */
  function ProbabilityGrid(vis: seq<VisibilityScore>): (r: seq<ProbabilityStatus>)
    ensures |r| == 5
    ensures forall i :: 0 <= i < 5 ==> r[i] == GetProbabilityStatus(GridScore(vis, LEVEL_NAMES[i]))
  {
    seq(5, i requires 0 <= i < 5 => GetProbabilityStatus(GridScore(vis, LEVEL_NAMES[i])))
  }

  /** A level absent from the results is graded "very low". */
  lemma AbsentLevelIsVeryLow(vis: seq<VisibilityScore>, lvl: string)
    requires forall j :: 0 <= j < |vis| ==> NormalizeLevel(vis[j].level) != lvl
    ensures GetProbabilityStatus(GridScore(vis, lvl)).labelText == "very low"
  {
    var levels := NormalizedLevels(vis);
    assert lvl !in levels by {
      forall j | 0 <= j < |levels| ensures levels[j] != lvl { }
    }
  }
}

=== FILE: analyze_api.dfy ===
/**
 * The guards of the serverless endpoint api/analyze.ts: the per-IP
 * fixed-window rate limiter with its periodic cleanup, the ordered profile
 * validation, and the order in which the handler applies them before the
 * language model is called. The clock is a parameter `now` (milliseconds).
 */
module AnalyzeApi {
  import opened Wrappers

  const MAX_REQUESTS: nat := 5
  /** One hour in milliseconds. */
  const WINDOW_MS: int := 60 * 60 * 1000

  /** The value stored per IP: calls seen in the window and the window's end. */
  datatype Entry = Entry(count: nat, resetAt: int)

  /** An entry still in its window at `now` (the source resets only when `now > resetAt`). */
  predicate Live(e: Entry, now: int)
  {
    !(now > e.resetAt)
  }

  /**
   * One call of `isRateLimited(ip)` at time `now`, as a function of the map
   * before the call: the map after it and the answer.
   */
  function Step(m: map<string, Entry>, ip: string, now: int): (r: (map<string, Entry>, bool))
    ensures r.0.Keys == m.Keys + {ip}
    ensures forall k :: k in m && k != ip ==> r.0[k] == m[k]
    ensures (ip !in m || !Live(m[ip], now)) ==> r.0[ip] == Entry(1, now + WINDOW_MS) && !r.1
    ensures ip in m && Live(m[ip], now) ==>
      r.0[ip] == Entry(m[ip].count + 1, m[ip].resetAt) && (r.1 <==> m[ip].count + 1 > MAX_REQUESTS)
  {
    if ip !in m || now > m[ip].resetAt then
      (m[ip := Entry(1, now + WINDOW_MS)], false)
    else
      var e := m[ip].(count := m[ip].count + 1);
      (m[ip := e], e.count > MAX_REQUESTS)
  }

  /** Successive calls from one IP at the given times: the final map and each call's answer. */
  function Run(m: map<string, Entry>, ip: string, times: seq<int>): (r: (map<string, Entry>, seq<bool>))
    ensures |r.1| == |times|
    ensures ip in m || times != [] ==> ip in r.0
    decreases |times|
  {
    if times == [] then (m, [])
    else
      var first := Step(m, ip, times[0]);
      var rest := Run(first.0, ip, times[1..]);
      (rest.0, [first.1] + rest.1)
  }

  /**
   * Calls inside a live window: the j-th of them answers "limited" exactly
   * when the count it raises exceeds MAX_REQUESTS, the count grows by one
   * per call, rejected calls included, and the window's end never moves.
   */
  lemma {:induction false} RunInWindow(m: map<string, Entry>, ip: string, times: seq<int>)
    requires ip in m
    requires forall j :: 0 <= j < |times| ==> Live(m[ip], times[j])
    ensures forall j :: 0 <= j < |times| ==> (Run(m, ip, times).1[j] <==> m[ip].count + j + 1 > MAX_REQUESTS)
    ensures Run(m, ip, times).0[ip] == Entry(m[ip].count + |times|, m[ip].resetAt)
    decreases |times|
  {
    if times != [] {
      var first := Step(m, ip, times[0]);
      RunInWindow(first.0, ip, times[1..]);
      var r := Run(m, ip, times);
      forall j | 0 <= j < |times|
        ensures r.1[j] <==> m[ip].count + j + 1 > MAX_REQUESTS
      {
        if j > 0 {
          assert r.1[j] == Run(first.0, ip, times[1..]).1[j - 1];
        }
      }
    }
  }

  /**
   * A window opened by a fresh or expired entry: of the calls made before it
   * expires, the first MAX_REQUESTS are let through and every later one is
   * limited; the entry ends holding every call and the window opened by the first.
   */
  lemma FixedWindow(m: map<string, Entry>, ip: string, times: seq<int>)
    requires times != []
    requires ip !in m || !Live(m[ip], times[0])
    requires forall j :: 0 < j < |times| ==> times[j] <= times[0] + WINDOW_MS
    ensures forall j :: 0 <= j < |times| ==> (Run(m, ip, times).1[j] <==> j >= MAX_REQUESTS)
    ensures Run(m, ip, times).0[ip] == Entry(|times|, times[0] + WINDOW_MS)
  {
    var first := Step(m, ip, times[0]);
    RunInWindow(first.0, ip, times[1..]);
    var r := Run(m, ip, times);
    forall j | 0 <= j < |times|
      ensures r.1[j] <==> j >= MAX_REQUESTS
    {
      if j > 0 {
        assert r.1[j] == Run(first.0, ip, times[1..]).1[j - 1];
      }
    }
  }

  /** Calls from one IP leave every other IP's entry alone. */
  lemma {:induction false} RunKeepsOthers(m: map<string, Entry>, ip: string, times: seq<int>, other: string)
    requires other != ip
    ensures other in Run(m, ip, times).0 <==> other in m
    ensures other in m ==> Run(m, ip, times).0[other] == m[other]
    decreases |times|
  {
    if times != [] {
      RunKeepsOthers(Step(m, ip, times[0]).0, ip, times[1..], other);
    }
  }

  /** The cleanup pass: the entries still live at `now`, unchanged. */
  function Sweep(m: map<string, Entry>, now: int): (r: map<string, Entry>)
    ensures forall k :: k in r <==> k in m && Live(m[k], now)
    ensures forall k :: k in r ==> r[k] == m[k]
  {
    map k | k in m && Live(m[k], now) :: m[k]
  }

  /**
   * Cleanup cannot be observed by the limiter: with a clock that does not go
   * back, a call answers the same and leaves the caller's entry the same
   * whether or not a cleanup ran in between.
   */
  lemma SweepInvisible(m: map<string, Entry>, swept: int, ip: string, now: int)
    requires swept <= now
    ensures Step(Sweep(m, swept), ip, now).1 == Step(m, ip, now).1
    ensures Step(Sweep(m, swept), ip, now).0[ip] == Step(m, ip, now).0[ip]
  {
  }

  /** Sweeping twice at the same time removes nothing more. */
  lemma SweepIdempotent(m: map<string, Entry>, now: int)
    ensures Sweep(Sweep(m, now), now) == Sweep(m, now)
  {
  }

  /** The module-level `rateLimitMap` and the two routines that change it. */
  class RateLimiter {
    var entries: map<string, Entry>

    constructor ()
      ensures entries == map[]
    {
      entries := map[];
    }

    /** `isRateLimited(ip)` with `Date.now()` passed in as `now`. */
    method IsRateLimited(ip: string, now: int) returns (limited: bool)
      modifies this
      ensures (entries, limited) == Step(old(entries), ip, now)
    {
      if ip !in entries || now > entries[ip].resetAt {
        entries := entries[ip := Entry(1, now + WINDOW_MS)];
        return false;
      }
      var entry := entries[ip];
      entry := entry.(count := entry.count + 1);
      entries := entries[ip := entry];
      if entry.count > MAX_REQUESTS {
        return true;
      }
      return false;
    }

    /** One run of the interval callback: delete every entry whose window ended before `now`. */
    method Cleanup(now: int)
      modifies this
      ensures entries == Sweep(old(entries), now)
    {
      var todo := entries.Keys;
      while todo != {}
        invariant todo <= old(entries).Keys
        invariant forall k :: k in entries <==> k in old(entries) && (k in todo || Live(old(entries)[k], now))
        invariant forall k :: k in entries ==> entries[k] == old(entries)[k]
        decreases todo
      {
        var ip :| ip in todo;
        if now > entries[ip].resetAt {
          entries := entries - {ip};
        }
        todo := todo - {ip};
      }
    }

    /**
     * The guard part of `handler`: method check, then rate limit, then
     * validation. A non-POST request never reaches the limiter; every POST
     * is counted, including one that then fails validation.
     */
    method Handle(isPost: bool, ip: string, now: int, profile: JsValue, serializedSize: nat) returns (outcome: Outcome)
      modifies this
      ensures !isPost ==> outcome == Reject(405, "Method not allowed") && entries == old(entries)
      ensures isPost ==>
        var step := Step(old(entries), ip, now);
        entries == step.0 && outcome == Dispatch(true, step.1, ValidateProfile(profile, serializedSize))
    {
      if !isPost {
        return Reject(405, "Method not allowed");
      }
      var limited := IsRateLimited(ip, now);
      if limited {
        return Reject(429, "Too many requests. Please try again later.");
      }
      var validationError := ValidateProfile(profile, serializedSize);
      if validationError.Some? {
        return Reject(400, validationError.value);
      }
      return Proceed;
    }
  }

  /** A request body as JavaScript sees it after JSON parsing, plus `undefined`. */
  datatype JsValue =
    | JUndefined
    | JNull
    | JBool(b: bool)
    | JNum(n: real)
    | JStr(s: string)
    | JArr(items: seq<JsValue>)
    | JObj(fields: map<string, JsValue>)

  /** JavaScript truthiness (`!v` is false). */
  predicate Truthy(v: JsValue)
  {
    match v
    case JUndefined => false
    case JNull => false
    case JBool(b) => b
    case JNum(n) => n != 0.0
    case JStr(s) => s != ""
    case JArr(_) => true
    case JObj(_) => true
  }

  /** The answers of `typeof` that a parsed JSON value can give. */
  datatype JsType = TUndefined | TObject | TBoolean | TNumber | TString

  /** The `typeof` operator. */
  function TypeOf(v: JsValue): (r: JsType)
    ensures r == TString <==> v.JStr?
    ensures r == TNumber <==> v.JNum?
    ensures r == TObject <==> v.JNull? || v.JArr? || v.JObj?
  {
    match v
    case JUndefined => TUndefined
    case JNull => TObject
    case JBool(_) => TBoolean
    case JNum(_) => TNumber
    case JStr(_) => TString
    case JArr(_) => TObject
    case JObj(_) => TObject
  }

  /** Property access `v.name`; absent properties, and properties of non-objects, are `undefined`. */
  function Get(v: JsValue, name: string): (r: JsValue)
    ensures !v.JObj? ==> r == JUndefined
    ensures v.JObj? && name in v.fields ==> r == v.fields[name]
  {
    if v.JObj? && name in v.fields then v.fields[name] else JUndefined
  }

  /** `!profile || typeof profile !== 'object'`. */
  predicate RejectsProfile(profile: JsValue)
    ensures RejectsProfile(profile) <==> !(profile.JObj? || profile.JArr?)
  {
    !Truthy(profile) || TypeOf(profile) != TObject
  }

  /** `!name || typeof name !== 'string' || name.length > 100`. */
  predicate RejectsName(name: JsValue)
    ensures RejectsName(name) <==> !NameOk(name)
  {
    !Truthy(name) || TypeOf(name) != TString || |name.s| > 100
  }

  /** `!['Male', 'Female'].includes(gender)`. */
  predicate RejectsGender(gender: JsValue)
    ensures RejectsGender(gender) <==> gender != JStr("Male") && gender != JStr("Female")
  {
    !(gender in [JStr("Male"), JStr("Female")])
  }

  /** `!position || typeof position !== 'string'`. */
  predicate RejectsPosition(position: JsValue)
    ensures RejectsPosition(position) <==> !(position.JStr? && position.s != "")
  {
    !Truthy(position) || TypeOf(position) != TString
  }

  /** `typeof gradYear !== 'number' || gradYear < 2020 || gradYear > 2035`. */
  predicate RejectsGradYear(gradYear: JsValue)
    ensures RejectsGradYear(gradYear) <==> !(gradYear.JNum? && 2020.0 <= gradYear.n <= 2035.0)
  {
    TypeOf(gradYear) != TNumber || gradYear.n < 2020.0 || gradYear.n > 2035.0
  }

  /**
   * `validateProfile(profile)`; `serializedSize` stands for
   * `JSON.stringify(profile).length`. The message is that of the first
   * check of CHECKS the profile fails.
   */
  function ValidateProfile(profile: JsValue, serializedSize: nat): (r: Option<string>)
    ensures r == match FirstFailure(profile, serializedSize)
                 case None => None
                 case Some(c) => Some(Message(c))
  {
    if RejectsProfile(profile) then Some("Invalid profile data")
    else if RejectsName(Get(profile, "firstName")) then Some("Invalid first name")
    else if RejectsName(Get(profile, "lastName")) then Some("Invalid last name")
    else if RejectsGender(Get(profile, "gender")) then Some("Invalid gender")
    else if RejectsPosition(Get(profile, "position")) then Some("Invalid position")
    else if RejectsGradYear(Get(profile, "gradYear")) then Some("Invalid graduation year")
    else if serializedSize > 10000 then Some("Profile data too large")
    else None
  }

  /** The checks `validateProfile` makes, as an independent reference. */
  datatype Check = IsObject | FirstName | LastName | Gender | PositionSet | GradYear | Size

  /** The order in which the checks run. */
  const CHECKS: seq<Check> := [IsObject, FirstName, LastName, Gender, PositionSet, GradYear, Size]

  /** A name field: a non-empty string of at most 100 characters. */
  predicate NameOk(v: JsValue)
  {
    v.JStr? && 0 < |v.s| <= 100
  }

  /** What each check demands, stated on the value's shape. */
  predicate Passes(c: Check, profile: JsValue, serializedSize: nat)
  {
    match c
    case IsObject => profile.JObj? || profile.JArr?
    case FirstName => NameOk(Get(profile, "firstName"))
    case LastName => NameOk(Get(profile, "lastName"))
    case Gender => Get(profile, "gender") == JStr("Male") || Get(profile, "gender") == JStr("Female")
    case PositionSet => Get(profile, "position").JStr? && Get(profile, "position").s != ""
    case GradYear => Get(profile, "gradYear").JNum? && 2020.0 <= Get(profile, "gradYear").n <= 2035.0
    case Size => serializedSize <= 10000
  }

  /** The error each check reports. */
  function Message(c: Check): (r: string)
    ensures r != ""
  {
    match c
    case IsObject => "Invalid profile data"
    case FirstName => "Invalid first name"
    case LastName => "Invalid last name"
    case Gender => "Invalid gender"
    case PositionSet => "Invalid position"
    case GradYear => "Invalid graduation year"
    case Size => "Profile data too large"
  }

  /** No two checks report the same message, so the message names the check that failed. */
  lemma MessagesDistinct(c1: Check, c2: Check)
    requires Message(c1) == Message(c2)
    ensures c1 == c2
  {
    assert |Message(c1)| == |Message(c2)|;
  }

  /** The message `validateProfile` returns identifies the first failing check. */
  lemma ValidateProfileNamesCheck(profile: JsValue, serializedSize: nat, c: Check)
    ensures ValidateProfile(profile, serializedSize) == Some(Message(c)) <==> FirstFailure(profile, serializedSize) == Some(c)
  {
    if ValidateProfile(profile, serializedSize) == Some(Message(c)) {
      MessagesDistinct(FirstFailure(profile, serializedSize).value, c);
    }
  }

  /** The first check of CHECKS that the profile fails. */
  function FirstFailure(profile: JsValue, size: nat): (r: Option<Check>)
    ensures r.None? <==> forall i :: 0 <= i < |CHECKS| ==> Passes(CHECKS[i], profile, size)
    ensures r.Some? ==>
      exists i :: 0 <= i < |CHECKS| && CHECKS[i] == r.value && !Passes(r.value, profile, size) &&
                  forall j :: 0 <= j < i ==> Passes(CHECKS[j], profile, size)
  {
    var c := CHECKS;
    if !Passes(IsObject, profile, size) then assert c[0] == IsObject; Some(IsObject)
    else if !Passes(FirstName, profile, size) then assert c[1] == FirstName; Some(FirstName)
    else if !Passes(LastName, profile, size) then assert c[2] == LastName; Some(LastName)
    else if !Passes(Gender, profile, size) then assert c[3] == Gender; Some(Gender)
    else if !Passes(PositionSet, profile, size) then assert c[4] == PositionSet; Some(PositionSet)
    else if !Passes(GradYear, profile, size) then assert c[5] == GradYear; Some(GradYear)
    else if !Passes(Size, profile, size) then assert c[6] == Size; Some(Size)
    else None
  }

  /**
   * `validateProfile` returns null exactly when the body is an object with
   * proper first and last names, a gender of "Male" or "Female", a
   * non-empty position, a numeric grad year in 2020..2035 and a serialised
   * size of at most 10000.
   */
  lemma ValidProfileIff(profile: JsValue, serializedSize: nat)
    ensures ValidateProfile(profile, serializedSize).None? <==>
      profile.JObj? &&
      NameOk(Get(profile, "firstName")) && NameOk(Get(profile, "lastName")) &&
      Get(profile, "gender") in {JStr("Male"), JStr("Female")} &&
      Get(profile, "position").JStr? && Get(profile, "position").s != "" &&
      Get(profile, "gradYear").JNum? && 2020.0 <= Get(profile, "gradYear").n <= 2035.0 &&
      serializedSize <= 10000
  {
    if ValidateProfile(profile, serializedSize).None? {
      assert Passes(CHECKS[1], profile, serializedSize);
      assert Passes(CHECKS[0], profile, serializedSize);
    }
  }

  /** What the handler does with a request once the guards have run. */
  datatype Outcome = Reject(status: nat, error: string) | Proceed

  /**
   * The early returns of `handler`: 405 for anything but POST, then 429 when
   * the limiter says so, then 400 with the validation message; otherwise the
   * request goes on to the model call.
   */
  function Dispatch(isPost: bool, limited: bool, validationError: Option<string>): (r: Outcome)
    ensures r.Reject? && r.status == 405 <==> !isPost
    ensures r.Reject? && r.status == 429 <==> isPost && limited
    ensures r.Reject? && r.status == 400 <==> isPost && !limited && validationError.Some?
    ensures r.Reject? && r.status == 400 ==> r.error == validationError.value
    ensures r.Proceed? <==> isPost && !limited && validationError.None?
  {
    if !isPost then Reject(405, "Method not allowed")
    else if limited then Reject(429, "Too many requests. Please try again later.")
    else if validationError.Some? then Reject(400, validationError.value)
    else Proceed
  }
}

=== FILE: gemini_service.dfy ===
/**
 * The repair pass of services/geminiService.ts: whatever JSON the language
 * model returned is turned into a complete AnalysisResult.
 */
module GeminiService {
  import opened Wrappers
  import opened Types
  import opened Text

  /** One visibility entry as the model returned it; `None` is a missing field. */
  datatype RawScore = RawScore(level: Option<string>, visibilityPercent: Option<real>, notes: Option<string>)

  /** `readinessScore` as returned: a bare number, an object with some of the keys, or a falsy value. */
  datatype RawReadiness = Number(n: real) | Fields(fields: map<ReadinessKey, real>) | Absent

  /** The parsed answer. A list field is `None` when it is not an array; any other field when it is falsy. */
  datatype RawResult = RawResult(
    visibilityScores: Option<seq<RawScore>>,
    readinessScore: RawReadiness,
    keyStrengths: Option<seq<string>>,
    keyRisks: Option<seq<RiskFlag>>,
    actionPlan: Option<seq<ActionItem>>,
    benchmarkAnalysis: Option<seq<BenchmarkMetric>>,
    funnelAnalysis: Option<FunnelAnalysis>,
    plainLanguageSummary: Option<string>,
    coachShortEvaluation: Option<string>)

  /** `Math.min(max, Math.max(min, val))`. */
  function Clamp(val: real, min: real, max: real): (r: real)
    ensures min <= max ==> min <= r <= max
    ensures min <= val <= max ==> r == val
    ensures r == val || r == min || r == max
    ensures r <= max
  {
    var m := if min < val then val else min;
    if m < max then m else max
  }

  /** Clamping to a range twice changes nothing the first clamp did not. */
  lemma ClampIdempotent(val: real, min: real, max: real)
    requires min <= max
    ensures Clamp(Clamp(val, min, max), min, max) == Clamp(val, min, max)
  {
  }

  /** A percentage as the normaliser stores it: a missing value becomes 0, then clamped to 0..100. */
  function NormalizePercent(p: Option<real>): (r: real)
    ensures 0.0 <= r <= 100.0
    ensures p.None? ==> r == 0.0
    ensures p.Some? && 0.0 <= p.value <= 100.0 ==> r == p.value
    ensures p.Some? && p.value < 0.0 ==> r == 0.0
    ensures p.Some? && p.value > 100.0 ==> r == 100.0
  {
    Clamp(p.GetOr(0.0), 0.0, 100.0)
  }

  /** One entry of the `.map` at lines 20-24: level cleaned, percentage clamped, notes kept. */
  function NormalizeEntry(v: RawScore): (r: VisibilityScore)
    ensures 0.0 <= r.visibilityPercent <= 100.0
    ensures r.notes == v.notes
    ensures r.level == NormalizeLevel(v.level.GetOr(""))
    ensures v.level.None? ==> r.level == ""
    ensures v.level.Some? && FindNcaa(v.level.value).None? && v.level.value == Trim(v.level.value) ==> r.level == v.level.value
    ensures v.visibilityPercent.Some? && 0.0 <= v.visibilityPercent.value <= 100.0 ==> r.visibilityPercent == v.visibilityPercent.value
  {
    VisibilityScore(NormalizeLevel(v.level.GetOr("")), NormalizePercent(v.visibilityPercent), v.notes)
  }

  function NormalizeEntries(raw: seq<RawScore>): (r: seq<VisibilityScore>)
    ensures |r| == |raw|
    ensures forall i :: 0 <= i < |raw| ==> r[i] == NormalizeEntry(raw[i])
  {
    seq(|raw|, i requires 0 <= i < |raw| => NormalizeEntry(raw[i]))
  }

  /** Some entry of `vis` has exactly the level `name` (the `vis.find` of line 28). */
  predicate HasLevel(vis: seq<VisibilityScore>, name: string) {
    exists i :: 0 <= i < |vis| && vis[i].level == name
  }

  /** The entry pushed for a level the model left out. */
  function Filler(name: string): (r: VisibilityScore)
    ensures r.level == name && r.notes == Some("Not evaluated")
    ensures r.visibilityPercent == 0.0 && NormalizePercent(Some(r.visibilityPercent)) == r.visibilityPercent
  {
    VisibilityScore(name, 0.0, Some("Not evaluated"))
  }

  /** The fillers for the levels of `names` that `vis` lacks, in the order of `names`. */
  function Fillers(vis: seq<VisibilityScore>, names: seq<string>): (r: seq<VisibilityScore>)
    ensures |r| <= |names|
    ensures forall i :: 0 <= i < |r| ==> r[i].level in names && !HasLevel(vis, r[i].level) && r[i] == Filler(r[i].level)
  {
    if names == [] then []
    else
      var last := names[|names| - 1];
      Fillers(vis, names[..|names| - 1]) + (if HasLevel(vis, last) then [] else [Filler(last)])
  }

  /** A level gets a filler exactly when it is one of `names` and `vis` lacks it. */
  lemma {:induction false} FillersExactlyMissing(vis: seq<VisibilityScore>, names: seq<string>, name: string)
    ensures HasLevel(Fillers(vis, names), name) <==> name in names && !HasLevel(vis, name)
  {
    if names != [] {
      var init := names[..|names| - 1];
      var last := names[|names| - 1];
      FillersExactlyMissing(vis, init, name);
      assert names == init + [last];
      var f := Fillers(vis, init);
      var tail: seq<VisibilityScore> := if HasLevel(vis, last) then [] else [Filler(last)];
      assert Fillers(vis, names) == f + tail;
      if HasLevel(f + tail, name) {
        var i :| 0 <= i < |f + tail| && (f + tail)[i].level == name;
        if i >= |f| {
          assert tail[i - |f|].level == name;
        } else {
          assert f[i].level == name;
        }
      }
      if name in names && !HasLevel(vis, name) {
        if name in init {
          var i :| 0 <= i < |f| && f[i].level == name;
          assert (f + tail)[i].level == name;
        } else {
          assert name == last;
          assert (f + tail)[|f|].level == name;
        }
      }
    }
  }

  /** Appending entries keeps every level already present. */
  lemma HasLevelAppend(vis: seq<VisibilityScore>, more: seq<VisibilityScore>, name: string)
    ensures HasLevel(vis + more, name) <==> HasLevel(vis, name) || HasLevel(more, name)
  {
    if HasLevel(vis + more, name) {
      var i :| 0 <= i < |vis + more| && (vis + more)[i].level == name;
      if i >= |vis| { assert more[i - |vis|].level == name; }
    }
    if HasLevel(more, name) {
      var i :| 0 <= i < |more| && more[i].level == name;
      assert (vis + more)[|vis| + i].level == name;
    }
    if HasLevel(vis, name) {
      var i :| 0 <= i < |vis| && vis[i].level == name;
      assert (vis + more)[i].level == name;
    }
  }

  /** The distinct levels occurring in `vis`. */
  function LevelSet(vis: seq<VisibilityScore>): set<string> {
    set i | 0 <= i < |vis| :: vis[i].level
  }

  lemma {:induction false} LevelSetSize(vis: seq<VisibilityScore>)
    ensures |LevelSet(vis)| <= |vis|
  {
    if vis != [] {
      var init := vis[..|vis| - 1];
      LevelSetSize(init);
      assert LevelSet(vis) == LevelSet(init) + {vis[|vis| - 1].level} by {
        forall i | 0 <= i < |init| ensures init[i] == vis[i] { }
      }
    }
  }

  /** A list holding all five level names has at least five entries. */
  lemma AllLevelsMeansFive(vis: seq<VisibilityScore>)
    requires forall n :: n in LEVEL_NAMES ==> HasLevel(vis, n)
    ensures |vis| >= 5
  {
    var names := set n | n in LEVEL_NAMES;
    assert names == {"D1", "D2", "D3", "NAIA", "JUCO"};
    assert |names| == 5;
    assert names <= LevelSet(vis) by {
      forall n | n in names ensures n in LevelSet(vis) {
        var i :| 0 <= i < |vis| && vis[i].level == n;
      }
    }
    assert |names| <= |LevelSet(vis)| by {
      LemmaSubsetSize(names, LevelSet(vis));
    }
    LevelSetSize(vis);
  }

  lemma LemmaSubsetSize<T>(a: set<T>, b: set<T>)
    requires a <= b
    ensures |a| <= |b|
  {
    assert b == a + (b - a);
  }

  /**
   * The loop at lines 27-31: for each of LEVELS in order, push a filler when
   * no entry has that level yet. The entries found are kept in front, in their
   * order; a filler is pushed exactly for each missing level.
   */
  method EnsureAllLevels(vis0: seq<VisibilityScore>) returns (vis: seq<VisibilityScore>)
    ensures vis == vis0 + Fillers(vis0, LEVEL_NAMES)
    ensures forall n :: n in LEVEL_NAMES ==> HasLevel(vis, n)
    ensures |vis| >= 5
  {
    vis := vis0;
    for i := 0 to |LEVEL_NAMES|
      invariant vis == vis0 + Fillers(vis0, LEVEL_NAMES[..i])
    {
      var level := LEVEL_NAMES[i];
      assert LEVEL_NAMES[..i + 1][..i] == LEVEL_NAMES[..i];
      assert level !in LEVEL_NAMES[..i];
      HasLevelAppend(vis0, Fillers(vis0, LEVEL_NAMES[..i]), level);
      FillersExactlyMissing(vis0, LEVEL_NAMES[..i], level);
      if !HasLevel(vis, level) {
        vis := vis + [Filler(level)];
      }
    }
    assert LEVEL_NAMES[..|LEVEL_NAMES|] == LEVEL_NAMES;
    forall n | n in LEVEL_NAMES ensures HasLevel(vis, n) {
      HasLevelAppend(vis0, Fillers(vis0, LEVEL_NAMES), n);
      FillersExactlyMissing(vis0, LEVEL_NAMES, n);
    }
    AllLevelsMeansFive(vis);
  }

  /** The raw value stored under `key` before the repair loop (lines 34-38). */
  function RawField(raw: RawReadiness, key: ReadinessKey): (r: Option<real>)
    ensures raw.Number? ==> r == Some(raw.n)
    ensures raw.Fields? && key in raw.fields ==> r == Some(raw.fields[key])
    ensures raw.Fields? && key !in raw.fields ==> r.None?
    ensures raw.Absent? ==> r.None?
  {
    match raw
    case Number(n) => Some(n)
    case Fields(f) => if key in f then Some(f[key]) else None
    case Absent => None
  }

  /** `clamp(rs[key] || 50, 0, 100)`: a missing or zero score reads as 50. */
  function ReadinessValue(v: Option<real>): (r: real)
    ensures 0.0 <= r <= 100.0
    ensures v.None? || v == Some(0.0) ==> r == 50.0
    ensures v.Some? && 0.0 < v.value <= 100.0 ==> r == v.value
    ensures v.Some? && v.value < 0.0 ==> r == 0.0
    ensures v.Some? && v.value > 100.0 ==> r == 100.0
  {
    Clamp(if v.None? || v.value == 0.0 then 50.0 else v.value, 0.0, 100.0)
  }

  /**
   * Lines 34-41: a bare number is copied to all five keys, a falsy value
   * becomes `{}`, and the loop then overwrites each key in place.
   */
  method NormalizeReadiness(raw: RawReadiness) returns (rs: map<ReadinessKey, real>)
    ensures forall k: ReadinessKey :: k in rs && rs[k] == ReadinessValue(RawField(raw, k))
    ensures forall k: ReadinessKey :: k in rs ==> 0.0 <= rs[k] <= 100.0
    ensures raw.Number? ==> forall k: ReadinessKey :: rs[k] == rs[Athletic]
    ensures forall k: ReadinessKey :: raw.Fields? && k in raw.fields && 0.0 < raw.fields[k] <= 100.0 ==> rs[k] == raw.fields[k]
    ensures forall k: ReadinessKey :: raw.Fields? && k !in raw.fields ==> rs[k] == 50.0
  {
    var m: map<ReadinessKey, real> := match raw
      case Number(n) => map[Athletic := n, Technical := n, Tactical := n, Academic := n, Market := n]
      case Fields(f) => f
      case Absent => map[];
    for i := 0 to |READINESS_KEYS|
      invariant forall j :: 0 <= j < i ==> READINESS_KEYS[j] in m && m[READINESS_KEYS[j]] == ReadinessValue(RawField(raw, READINESS_KEYS[j]))
      invariant forall j :: i <= j < |READINESS_KEYS| ==> (READINESS_KEYS[j] in m) == RawField(raw, READINESS_KEYS[j]).Some?
      invariant forall j :: i <= j < |READINESS_KEYS| && READINESS_KEYS[j] in m ==> m[READINESS_KEYS[j]] == RawField(raw, READINESS_KEYS[j]).value
    {
      var key := READINESS_KEYS[i];
      var current: Option<real> := if key in m then Some(m[key]) else None;
      m := m[key := Clamp(if current.None? || current.value == 0.0 then 50.0 else current.value, 0.0, 100.0)];
    }
    rs := m;
    forall k: ReadinessKey ensures k in rs && rs[k] == ReadinessValue(RawField(raw, k)) {
      assert k == READINESS_KEYS[match k case Athletic => 0 case Technical => 1 case Tactical => 2 case Academic => 3 case Market => 4];
    }
  }

  /** The default funnel when the model gave none (lines 51-56). */
  const DEFAULT_FUNNEL := FunnelAnalysis("Invisible", "0%", "Unknown", "Review data")

  /** `validateAndNormalize`: the whole repair of one answer. */
  method ValidateAndNormalize(raw: RawResult) returns (r: AnalysisResult)
    ensures |r.visibilityScores| >= 5
    ensures forall n :: n in LEVEL_NAMES ==> HasLevel(r.visibilityScores, n)
    ensures forall i :: 0 <= i < |r.visibilityScores| ==> 0.0 <= r.visibilityScores[i].visibilityPercent <= 100.0
    ensures var given := NormalizeEntries(raw.visibilityScores.GetOr([]));
      r.visibilityScores == given + Fillers(given, LEVEL_NAMES)
    ensures forall k: ReadinessKey :: k in r.readinessScore && r.readinessScore[k] == ReadinessValue(RawField(raw.readinessScore, k))
    ensures r.keyStrengths == raw.keyStrengths.GetOr([])
    ensures r.keyRisks == raw.keyRisks.GetOr([])
    ensures r.actionPlan == raw.actionPlan.GetOr([])
    ensures r.benchmarkAnalysis == raw.benchmarkAnalysis.GetOr([])
    ensures r.funnelAnalysis == raw.funnelAnalysis.GetOr(DEFAULT_FUNNEL)
    ensures raw.funnelAnalysis.None? ==> r.funnelAnalysis.stage == "Invisible"
    ensures r.plainLanguageSummary == raw.plainLanguageSummary.GetOr("")
    ensures r.coachShortEvaluation == raw.coachShortEvaluation.GetOr("")
  {
    var given := NormalizeEntries(raw.visibilityScores.GetOr([]));
    var vis := EnsureAllLevels(given);
    forall i | 0 <= i < |vis| ensures 0.0 <= vis[i].visibilityPercent <= 100.0 {
      if i >= |given| {
        assert vis[i] == Fillers(given, LEVEL_NAMES)[i - |given|];
      }
    }
    var rs := NormalizeReadiness(raw.readinessScore);
    r := AnalysisResult(
      vis, rs,
      raw.keyStrengths.GetOr([]),
      raw.keyRisks.GetOr([]),
      raw.actionPlan.GetOr([]),
      raw.plainLanguageSummary.GetOr(""),
      raw.coachShortEvaluation.GetOr(""),
      raw.funnelAnalysis.GetOr(DEFAULT_FUNNEL),
      raw.benchmarkAnalysis.GetOr([]));
  }

  /**
   * Lines 197-205 after parsing: normalise, then reject fewer than five
   * visibility entries. The rejection can never happen.
   */
  method NormalizeAndCheck(raw: RawResult) returns (r: Result<AnalysisResult, string>)
    ensures r.Ok?
    ensures |r.value.visibilityScores| >= 5
  {
    var result := ValidateAndNormalize(raw);
    if |result.visibilityScores| < 5 {
      return Err("Incomplete visibility scores");
    }
    return Ok(result);
  }
}

=== FILE: player_form.dfy ===
/**
 * The state updaters of the player form (components/PlayerInputForm.tsx).
 * Each one is a function from the previous profile to the next, the way
 * the component's `setProfile(prev => ...)` callbacks build a fresh value.
 */
module PlayerForm {
  import opened Wrappers
  import opened Types
  import opened Text

  /** `s.filter(y => y !== x)`. */
  function Without<T(==)>(s: seq<T>, x: T): (r: seq<T>)
    ensures multiset(r) == multiset(s)[x := 0]
    ensures x !in s ==> r == s
    ensures |r| <= |s|
  {
    if s == [] then []
    else
      assert s == [s[0]] + s[1..];
      assert multiset(s) == multiset{s[0]} + multiset(s[1..]);
      var rest := Without(s[1..], x);
      if s[0] == x then rest
      else
        assert multiset([s[0]] + rest) == multiset{s[0]} + multiset(rest);
        [s[0]] + rest
  }

  /** On a one-element list the filter keeps the element exactly when it differs from `x`. */
  lemma WithoutSingle<T>(y: T, x: T)
    ensures Without([y], x) == if y == x then [] else [y]
  {
    assert [y][1..] == [];
  }

  /**
   * The filter works element by element: filtering a concatenation filters
   * each part and keeps them in order. With WithoutSingle this fixes the
   * result of Without completely, order included.
   */
  lemma {:induction false} WithoutConcat<T>(a: seq<T>, b: seq<T>, x: T)
    ensures Without(a + b, x) == Without(a, x) + Without(b, x)
  {
    if a == [] {
      assert a + b == b;
    } else {
      assert (a + b)[0] == a[0];
      assert (a + b)[1..] == a[1..] + b;
      WithoutConcat(a[1..], b, x);
    }
  }

  /** `toggleLeague` of the league picker: drop every copy of a selected league, or append an unselected one. */
  function ToggleLeague(selected: seq<YouthLeague>, league: YouthLeague): (r: seq<YouthLeague>)
    ensures league in selected ==> league !in r && multiset(r) == multiset(selected)[league := 0]
    ensures league in selected ==> r == Without(selected, league)
    ensures league !in selected ==> r == selected + [league]
  {
    if league in selected then
      var kept := Without(selected, league);
      assert multiset(kept)[league] == 0;
      kept
    else selected + [league]
  }

  /**
   * Toggling the same league twice gives back the same set of leagues, and
   * exactly the same list when the league was not selected.
   */
  lemma ToggleLeagueTwice(selected: seq<YouthLeague>, league: YouthLeague)
    ensures (set l | l in ToggleLeague(ToggleLeague(selected, league), league)) == (set l | l in selected)
    ensures league !in selected ==> ToggleLeague(ToggleLeague(selected, league), league) == selected
  {
    var once := ToggleLeague(selected, league);
    var twice := ToggleLeague(once, league);
    if league in selected {
      assert twice == once + [league];
      forall l ensures l in twice <==> l in selected {
        if l != league {
          assert l in once <==> multiset(once)[l] > 0;
        }
      }
    } else {
      assert league in once;
      assert multiset(twice)[league] == 0;
      assert twice == Without(selected + [league], league);
      WithoutAppend(selected, league);
    }
  }

  /** Filtering out a value that was only appended undoes the append. */
  lemma {:induction false} WithoutAppend<T>(s: seq<T>, x: T)
    requires x !in s
    ensures Without(s + [x], x) == s
  {
    if s == [] {
      assert [] + [x] == [x];
    } else {
      assert (s + [x])[1..] == s[1..] + [x];
      WithoutAppend(s[1..], x);
    }
  }

  /** No position is listed twice. */
  predicate Distinct<T(==)>(s: seq<T>)
  {
    forall i, j :: 0 <= i < j < |s| ==> s[i] != s[j]
  }

  /**
   * `toggleSecondaryPosition`: a selected position is removed; an unselected
   * one is added only while fewer than two are selected. No other field changes.
   */
  function ToggleSecondaryPosition(p: PlayerProfile, pos: Position): (r: PlayerProfile)
    ensures r == p.(secondaryPositions := r.secondaryPositions)
    ensures forall q :: q != pos ==> (q in r.secondaryPositions <==> q in p.secondaryPositions)
    ensures pos in p.secondaryPositions ==> r.secondaryPositions == Without(p.secondaryPositions, pos)
    ensures pos in r.secondaryPositions <==> pos !in p.secondaryPositions && |p.secondaryPositions| < 2
    ensures pos !in p.secondaryPositions && |p.secondaryPositions| >= 2 ==> r == p
    ensures pos !in p.secondaryPositions && |p.secondaryPositions| < 2 ==>
      r.secondaryPositions == p.secondaryPositions + [pos]
  {
    var current := p.secondaryPositions;
    if pos in current then
      var kept := Without(current, pos);
      assert forall q :: q in kept <==> multiset(kept)[q] > 0;
      p.(secondaryPositions := kept)
    else if |current| >= 2 then p
    else p.(secondaryPositions := current + [pos])
  }

  /** Dropping elements from a list without repeats leaves one without repeats. */
  lemma {:induction false} WithoutDistinct<T>(s: seq<T>, x: T)
    requires Distinct(s)
    ensures Distinct(Without(s, x))
  {
    if s != [] {
      WithoutDistinct(s[1..], x);
      if s[0] != x {
        var rest := Without(s[1..], x);
        assert multiset(rest)[s[0]] == multiset(s[1..])[s[0]] == 0;
        assert s[0] !in rest;
      }
    }
  }

  /** Starting from at most two distinct secondaries, a toggle keeps at most two, all distinct. */
  lemma ToggleSecondaryKeepsLimit(p: PlayerProfile, pos: Position)
    requires Distinct(p.secondaryPositions) && |p.secondaryPositions| <= 2
    ensures Distinct(ToggleSecondaryPosition(p, pos).secondaryPositions)
    ensures |ToggleSecondaryPosition(p, pos).secondaryPositions| <= 2
  {
    if pos in p.secondaryPositions {
      WithoutDistinct(p.secondaryPositions, pos);
    }
  }

  /** The season `addSeason` appends after one played in `lastYear`. */
  function NewSeason(lastYear: int): (r: SeasonStat)
    ensures r.year == lastYear - 1
  {
    SeasonStat(lastYear - 1, "", [High_School], 50, Rotation, 0, 0, "")
  }

  /**
   * `addSeason`: one season is appended, a year before the last one, in
   * high school, 50% minutes, rotation, no goals or assists. It reads the
   * last season, so the list must not be empty.
   */
  function AddSeason(p: PlayerProfile): (r: PlayerProfile)
    requires |p.seasons| > 0
    ensures r == p.(seasons := r.seasons)
    ensures |r.seasons| == |p.seasons| + 1
    ensures r.seasons[..|p.seasons|] == p.seasons
    ensures var added := r.seasons[|p.seasons|];
      added.year == p.seasons[|p.seasons| - 1].year - 1 && added.teamName == "" &&
      added.league == [High_School] && added.minutesPlayedPercent == 50 &&
      added.mainRole == Rotation && added.goals == 0 && added.assists == 0 && added.honors == ""
  {
    p.(seasons := p.seasons + [NewSeason(p.seasons[|p.seasons| - 1].year)])
  }

  /** `s.filter((_, i) => i !== index)`: every element whose position is not `index`. */
  function DropIndex<T>(s: seq<T>, index: int): (r: seq<T>)
    ensures |r| <= |s|
  {
    if s == [] then []
    else DropIndex(s[..|s| - 1], index) + (if |s| - 1 == index then [] else [s[|s| - 1]])
  }

  /** With `index` out of range the filter keeps everything. */
  lemma {:induction false} DropIndexOutside<T>(s: seq<T>, index: int)
    requires !(0 <= index < |s|)
    ensures DropIndex(s, index) == s
  {
    if s != [] {
      DropIndexOutside(s[..|s| - 1], index);
      assert s == s[..|s| - 1] + [s[|s| - 1]];
    }
  }

  /** With `index` in range the filter drops exactly that element. */
  lemma {:induction false} DropIndexInside<T>(s: seq<T>, index: int)
    requires 0 <= index < |s|
    ensures DropIndex(s, index) == s[..index] + s[index + 1..]
  {
    var n := |s| - 1;
    var init := s[..n];
    if index == n {
      DropIndexOutside(init, index);
      assert s[index + 1..] == [];
    } else {
      DropIndexInside(init, index);
      assert init[..index] == s[..index];
      assert init[index + 1..] + [s[n]] == s[index + 1..];
    }
  }

  /** The filter of `removeSeason` and `removeEvent`, by cases on the index. */
  lemma DropIndexSpec<T>(s: seq<T>, index: int)
    ensures 0 <= index < |s| ==> DropIndex(s, index) == s[..index] + s[index + 1..]
    ensures !(0 <= index < |s|) ==> DropIndex(s, index) == s
  {
    if 0 <= index < |s| {
      DropIndexInside(s, index);
    } else {
      DropIndexOutside(s, index);
    }
  }

  /** `removeSeason(index)`: the season at `index` is dropped, the rest keep their order. */
  function RemoveSeason(p: PlayerProfile, index: int): (r: PlayerProfile)
    ensures r == p.(seasons := r.seasons)
    ensures 0 <= index < |p.seasons| ==> r.seasons == p.seasons[..index] + p.seasons[index + 1..]
    ensures !(0 <= index < |p.seasons|) ==> r == p
  {
    DropIndexSpec(p.seasons, index);
    p.(seasons := DropIndex(p.seasons, index))
  }

  /** `removeEvent(index)`: the event at `index` is dropped, the rest keep their order. */
  function RemoveEvent(p: PlayerProfile, index: int): (r: PlayerProfile)
    ensures r == p.(events := r.events)
    ensures 0 <= index < |p.events| ==> r.events == p.events[..index] + p.events[index + 1..]
    ensures !(0 <= index < |p.events|) ==> r == p
  {
    DropIndexSpec(p.events, index);
    p.(events := DropIndex(p.events, index))
  }

  /** A single-field edit of a season, as `updateSeason(index, field, value)` makes it. */
  datatype SeasonEdit =
    | SetYear(year: int)
    | SetTeamName(teamName: string)
    | SetLeague(league: seq<YouthLeague>)
    | SetMinutes(minutes: int)
    | SetRole(role: MainRole)
    | SetGoals(goals: int)
    | SetAssists(assists: int)
    | SetHonors(honors: string)

  /** `{ ...season, [field]: value }`: the named field takes the value, every other field is kept. */
  function EditSeason(s: SeasonStat, e: SeasonEdit): (r: SeasonStat)
    ensures r.year == (if e.SetYear? then e.year else s.year)
    ensures r.teamName == (if e.SetTeamName? then e.teamName else s.teamName)
    ensures r.league == (if e.SetLeague? then e.league else s.league)
    ensures r.minutesPlayedPercent == (if e.SetMinutes? then e.minutes else s.minutesPlayedPercent)
    ensures r.mainRole == (if e.SetRole? then e.role else s.mainRole)
    ensures r.goals == (if e.SetGoals? then e.goals else s.goals)
    ensures r.assists == (if e.SetAssists? then e.assists else s.assists)
    ensures r.honors == (if e.SetHonors? then e.honors else s.honors)
  {
    match e
    case SetYear(v) => s.(year := v)
    case SetTeamName(v) => s.(teamName := v)
    case SetLeague(v) => s.(league := v)
    case SetMinutes(v) => s.(minutesPlayedPercent := v)
    case SetRole(v) => s.(mainRole := v)
    case SetGoals(v) => s.(goals := v)
    case SetAssists(v) => s.(assists := v)
    case SetHonors(v) => s.(honors := v)
  }

  /** `updateSeason`: only the edited season changes; the list keeps its length. */
  function UpdateSeason(p: PlayerProfile, index: int, e: SeasonEdit): (r: PlayerProfile)
    requires 0 <= index < |p.seasons|
    ensures r == p.(seasons := r.seasons)
    ensures |r.seasons| == |p.seasons|
    ensures r.seasons[index] == EditSeason(p.seasons[index], e)
    ensures forall j :: 0 <= j < |p.seasons| && j != index ==> r.seasons[j] == p.seasons[j]
  {
    p.(seasons := p.seasons[index := EditSeason(p.seasons[index], e)])
  }

  /** A single-field edit of an event, as `updateEvent(index, field, value)` makes it. */
  datatype EventEdit =
    | SetName(name: string)
    | SetType(eventType: EventType)
    | SetCollegesNoted(collegesNoted: string)

  /** `{ ...event, [field]: value }`. */
  function EditEvent(ev: ExposureEvent, e: EventEdit): (r: ExposureEvent)
    ensures r.name == (if e.SetName? then e.name else ev.name)
    ensures r.eventType == (if e.SetType? then e.eventType else ev.eventType)
    ensures r.collegesNoted == (if e.SetCollegesNoted? then e.collegesNoted else ev.collegesNoted)
  {
    match e
    case SetName(v) => ev.(name := v)
    case SetType(v) => ev.(eventType := v)
    case SetCollegesNoted(v) => ev.(collegesNoted := v)
  }

  /** `updateEvent`: only the edited event changes; the list keeps its length. */
  function UpdateEvent(p: PlayerProfile, index: int, e: EventEdit): (r: PlayerProfile)
    requires 0 <= index < |p.events|
    ensures r == p.(events := r.events)
    ensures |r.events| == |p.events|
    ensures r.events[index] == EditEvent(p.events[index], e)
    ensures forall j :: 0 <= j < |p.events| && j != index ==> r.events[j] == p.events[j]
  {
    p.(events := p.events[index := EditEvent(p.events[index], e)])
  }

  /** `addEvent`: an empty showcase is appended. */
  function AddEvent(p: PlayerProfile): (r: PlayerProfile)
    ensures r == p.(events := r.events)
    ensures |r.events| == |p.events| + 1
    ensures r.events[..|p.events|] == p.events
    ensures r.events[|p.events|] == ExposureEvent("", Showcase, "")
  {
    p.(events := p.events + [ExposureEvent("", Showcase, "")])
  }

  /**
   * The grad-year input's `onChange`: the text is read with `parseInt`, a
   * non-number becomes 0, and the value goes to both `gradYear` and
   * `academics.graduationYear`.
   */
  function EditGradYear(p: PlayerProfile, input: string): (r: PlayerProfile)
    ensures r == p.(gradYear := r.gradYear, academics := p.academics.(graduationYear := r.gradYear))
    ensures r.academics.graduationYear == r.gradYear
    ensures ParseInt(input).None? ==> r.gradYear == 0
    ensures ParseInt(input).Some? ==> r.gradYear == ParseInt(input).value
  {
    var newVal := ParseInt(input).GetOr(0);
    var p1 := p.(gradYear := newVal);
    p1.(academics := p1.academics.(graduationYear := newVal))
  }

  /**
   * A typed year is stored as that year in both places (exactly, as the
   * model's integers are; the program's double is exact below 2^53).
   */
  lemma EditGradYearDigits(p: PlayerProfile, year: nat)
    ensures EditGradYear(p, NatToString(year)).gradYear == year
    ensures EditGradYear(p, NatToString(year)).academics.graduationYear == year
  {
    ParseIntNatToString(year);
  }

  /** The form's initial state. */
  const INITIAL_PROFILE: PlayerProfile := PlayerProfile(
    "", "", Male, "", "", Youth_Club_Only, "CM", [], Right, "5'10\"", 2026, "",
    [SeasonStat(2024, "", [ECNL], 80, Key_Starter, 0, 0, "")],
    AcademicProfile(2026, 3.0, Some("")),
    AthleticProfile("Average", "Average", "Average", "Average", "Average", "Average"),
    [], false, 0, 0, 0)

  /** The profile `fillMockData` writes, replacing the whole form. */
  const MOCK_PROFILE: PlayerProfile := PlayerProfile(
    "Jordan", "Morris", Male, "2007-06-15", "USA", Youth_Club_Only, "CM", ["DM", "AM"], Right,
    "5'11\"", 2026, "California",
    [SeasonStat(2024, "Pateadores Academy", [ECNL], 85, Key_Starter, 6, 9, "2nd Team All-Conference")],
    AcademicProfile(2026, 3.4, Some("1180 SAT")),
    AthleticProfile("Above_Average", "Above_Average", "Top_10_Percent", "Elite", "Above_Average", "Elite"),
    [ExposureEvent("ECNL Phoenix", Showcase, "UCSD, SDSU, UCI"), ExposureEvent("Surf Cup", Showcase, "USD")],
    true, 18, 2, 0)

  /** The user actions the form offers that go through these updaters. */
  datatype FormAction =
    | PrimaryPositionSelect(primary: Position)
    | MockDataClick
    | ToggleSecondary(pos: Position)
    | AddSeasonClick
    | RemoveSeasonClick(index: int)
    | SeasonInput(index: int, seasonEdit: SeasonEdit)
    | LeagueClick(index: int, league: YouthLeague)
    | AddEventClick
    | EventInput(index: int, eventEdit: EventEdit)
    | RemoveEventClick(index: int)
    | GradYearInput(text: string)

  /**
   * The actions the rendered form can produce: the primary-position select
   * lists POSITIONS, per-item controls exist only for items on screen, a
   * season's remove button only from the second season on, a season's
   * inputs edit only its year, role, minutes and honours (its leagues go
   * through the league picker), a secondary-position button for every
   * position of POSITIONS but the primary one, and a league option for each
   * of LEAGUES.
   */
  predicate Offered(p: PlayerProfile, a: FormAction)
  {
    match a
    case PrimaryPositionSelect(pos) => pos in POSITIONS
    case ToggleSecondary(pos) => pos in POSITIONS && pos != p.position
    case RemoveSeasonClick(i) => 0 < i < |p.seasons|
    case SeasonInput(i, e) => 0 <= i < |p.seasons| && (e.SetYear? || e.SetRole? || e.SetMinutes? || e.SetHonors?)
    case LeagueClick(i, league) => 0 <= i < |p.seasons| && league in LEAGUES
    case EventInput(i, _) => 0 <= i < |p.events|
    case RemoveEventClick(i) => 0 <= i < |p.events|
    case _ => true
  }

  /**
   * What the form keeps true of its profile: there is a season, and at most
   * two secondary positions, none listed twice. Whether a secondary is one
   * of POSITIONS, or differs from the primary, is not kept: see
   * MockSecondariesOutsideTable and PrimaryShadowsSecondary.
   */
  predicate FormInvariant(p: PlayerProfile)
  {
    && |p.seasons| > 0
    && Distinct(p.secondaryPositions) && |p.secondaryPositions| <= 2
  }

  /**
   * The profile after one offered action; the primary-position select goes
   * through `handleInputChange('position', ...)`, the mock-data button
   * replaces the profile, and the league picker edits the season's league list.
   */
  function Apply(p: PlayerProfile, a: FormAction): (r: PlayerProfile)
    requires FormInvariant(p) && Offered(p, a)
    ensures FormInvariant(r)
    ensures a.PrimaryPositionSelect? ==> r == p.(position := a.primary)
    ensures a.MockDataClick? ==> r == MOCK_PROFILE
    ensures !a.PrimaryPositionSelect? && !a.MockDataClick? ==> r.position == p.position
  {
    match a
    case PrimaryPositionSelect(pos) => p.(position := pos)
    case MockDataClick => MOCK_PROFILE
    case ToggleSecondary(pos) =>
      ToggleSecondaryKeepsLimit(p, pos);
      ToggleSecondaryPosition(p, pos)
    case AddSeasonClick => AddSeason(p)
    case RemoveSeasonClick(i) => RemoveSeason(p, i)
    case SeasonInput(i, e) => UpdateSeason(p, i, e)
    case LeagueClick(i, league) => UpdateSeason(p, i, SetLeague(ToggleLeague(p.seasons[i].league, league)))
    case AddEventClick => AddEvent(p)
    case EventInput(i, e) => UpdateEvent(p, i, e)
    case RemoveEventClick(i) => RemoveEvent(p, i)
    case GradYearInput(text) => EditGradYear(p, text)
  }

  /** A sequence of actions; `None` as soon as one of them is not offered. */
  function Replay(p: PlayerProfile, actions: seq<FormAction>): (r: Option<PlayerProfile>)
    requires FormInvariant(p)
    ensures r.Some? ==> FormInvariant(r.value)
    ensures (forall i :: 0 <= i < |actions| ==>
               (actions[i].ToggleSecondary? && actions[i].pos in POSITIONS && actions[i].pos != p.position) ||
               actions[i].AddSeasonClick? || actions[i].AddEventClick? || actions[i].GradYearInput?)
            ==> r.Some?
    decreases |actions|
  {
    if actions == [] then Some(p)
    else if !Offered(p, actions[0]) then None
    else Replay(Apply(p, actions[0]), actions[1..])
  }

  /**
   * The initial profile satisfies the invariant, so along any sequence of
   * offered actions the season list stays non-empty and `addSeason` always
   * has a last season to read.
   */
  lemma AddSeasonAlwaysDefined(actions: seq<FormAction>)
    ensures FormInvariant(INITIAL_PROFILE)
    ensures Replay(INITIAL_PROFILE, actions).Some? ==> |Replay(INITIAL_PROFILE, actions).value.seasons| > 0
  {
  }

  /** The mock data's secondaries, "DM" and "AM", are not among the positions the form lists. */
  lemma MockSecondariesOutsideTable()
    ensures FormInvariant(MOCK_PROFILE)
    ensures forall q :: q in MOCK_PROFILE.secondaryPositions ==> q !in POSITIONS
  {
    assert MOCK_PROFILE.secondaryPositions == ["DM", "AM"];
    assert "DM" !in POSITIONS by { assert |"DM"| == 2 && "DM"[0] == 'D'; }
    assert "AM" !in POSITIONS by { assert |"AM"| == 2 && "AM"[0] == 'A'; }
  }

  /**
   * Choosing a selected secondary as the primary position keeps it as a
   * secondary, and since the buttons leave out the primary position, no
   * toggle the form then offers removes it.
   */
  lemma PrimaryShadowsSecondary(p: PlayerProfile, pos: Position)
    requires FormInvariant(p) && pos in POSITIONS && pos in p.secondaryPositions
    ensures var q := Apply(p, PrimaryPositionSelect(pos));
      q.position == pos && pos in q.secondaryPositions &&
      forall t :: Offered(q, ToggleSecondary(t)) ==> pos in Apply(q, ToggleSecondary(t)).secondaryPositions
  {
  }

  /** From the initial form: tick "CB" as a secondary, then choose "CB" as primary. */
  lemma PrimaryEqualsSecondaryReachable()
    ensures var r := Replay(INITIAL_PROFILE, [ToggleSecondary("CB"), PrimaryPositionSelect("CB")]);
      r.Some? && r.value.position == "CB" && r.value.secondaryPositions == ["CB"]
  {
    var a := [ToggleSecondary("CB"), PrimaryPositionSelect("CB")];
    assert "CB" == POSITIONS[1];
    assert "CB" != INITIAL_PROFILE.position by { assert "CB"[1] != INITIAL_PROFILE.position[1]; }
    var p1 := Apply(INITIAL_PROFILE, a[0]);
    assert p1.secondaryPositions == ["CB"];
    assert a[1..] == [PrimaryPositionSelect("CB")];
    assert a[1..][1..] == [];
  }
}

=== FILE: stable_sort.dfy ===
/**
 * A stable sort into falling key order: what `Array.prototype.sort` does with
 * a comparator `(a, b) => key(b) - key(a)`.
 */
module StableSort {

  /** Non-increasing in `key`. */
  ghost predicate SortedDesc<T>(s: seq<T>, key: T -> real) {
    forall i, j :: 0 <= i < j < |s| ==> key(s[i]) >= key(s[j])
  }

  /** The elements of `s` whose key is `k`, in the order of `s`. */
  function Keep<T>(s: seq<T>, key: T -> real, k: real): seq<T> {
    if s == [] then []
    else (if key(s[0]) == k then [s[0]] else []) + Keep(s[1..], key, k)
  }

  /** Insert `x` before the first element whose key is not above its own. */
  function InsertDesc<T>(x: T, t: seq<T>, key: T -> real): (r: seq<T>)
    ensures |r| == |t| + 1
    ensures multiset(r) == multiset(t) + multiset{x}
    ensures r[0] == x || (t != [] && r[0] == t[0])
  {
    if t == [] || key(t[0]) <= key(x) then [x] + t
    else
      assert t == [t[0]] + t[1..];
      [t[0]] + InsertDesc(x, t[1..], key)
  }

  /** Inserting into a sorted list keeps it sorted. */
  lemma {:induction false} InsertDescSorted<T>(x: T, t: seq<T>, key: T -> real)
    requires SortedDesc(t, key)
    ensures SortedDesc(InsertDesc(x, t, key), key)
  {
    if t != [] && key(t[0]) > key(x) {
      var rest := InsertDesc(x, t[1..], key);
      InsertDescSorted(x, t[1..], key);
      var r := [t[0]] + rest;
      assert r == InsertDesc(x, t, key);
      assert key(t[0]) >= key(rest[0]) by {
        if rest[0] != x {
          assert rest[0] == t[1];
        }
      }
      forall i, j | 0 <= i < j < |r| ensures key(r[i]) >= key(r[j]) {
        assert r[j] == rest[j - 1];
        if i > 0 {
          assert r[i] == rest[i - 1];
        } else if j > 1 {
          assert key(rest[0]) >= key(rest[j - 1]);
        }
      }
    }
  }

  /** The sort: each element is inserted into the sorted rest, ahead of equal keys. */
  function SortDesc<T>(s: seq<T>, key: T -> real): (r: seq<T>)
    ensures |r| == |s|
    ensures multiset(r) == multiset(s)
    ensures SortedDesc(r, key)
  {
    if s == [] then []
    else
      assert s == [s[0]] + s[1..];
      InsertDescSorted(s[0], SortDesc(s[1..], key), key);
      InsertDesc(s[0], SortDesc(s[1..], key), key)
  }

  /** The part of `Keep` one element contributes. */
  function KeepOne<T>(x: T, key: T -> real, k: real): seq<T> {
    if key(x) == k then [x] else []
  }

  lemma KeepCons<T>(x: T, t: seq<T>, key: T -> real, k: real)
    ensures Keep([x] + t, key, k) == KeepOne(x, key, k) + Keep(t, key, k)
  {
    assert ([x] + t)[0] == x;
    assert ([x] + t)[1..] == t;
  }

  lemma SwapEmpty<T>(a: seq<T>, b: seq<T>, c: seq<T>)
    requires a == [] || b == []
    ensures a + (b + c) == b + (a + c)
  {
    if a == [] {
      assert a + (b + c) == b + c == b + (a + c);
    } else {
      assert a + (b + c) == a + c == b + (a + c);
    }
  }

  /** Inserting moves `x` only past elements with a higher key, so no two elements of one key swap. */
  lemma {:induction false} KeepInsert<T>(x: T, t: seq<T>, key: T -> real, k: real)
    ensures Keep(InsertDesc(x, t, key), key, k) == Keep([x] + t, key, k)
  {
    if t != [] && key(t[0]) > key(x) {
      var rest := InsertDesc(x, t[1..], key);
      var a, b, c := KeepOne(t[0], key, k), KeepOne(x, key, k), Keep(t[1..], key, k);
      assert a == [] || b == [] by {
        if key(t[0]) == k { assert key(x) != k; }
      }
      calc {
        Keep(InsertDesc(x, t, key), key, k);
        { assert InsertDesc(x, t, key) == [t[0]] + rest; }
        Keep([t[0]] + rest, key, k);
        { KeepCons(t[0], rest, key, k); }
        a + Keep(rest, key, k);
        { KeepInsert(x, t[1..], key, k); KeepCons(x, t[1..], key, k); }
        a + (b + c);
        { SwapEmpty(a, b, c); }
        b + (a + c);
        { assert t == [t[0]] + t[1..]; KeepCons(t[0], t[1..], key, k); }
        b + Keep(t, key, k);
        { KeepCons(x, t, key, k); }
        Keep([x] + t, key, k);
      }
    }
  }

  /** Stability: for every key value, the elements with that key keep their input order. */
  lemma {:induction false} SortDescStable<T>(s: seq<T>, key: T -> real, k: real)
    ensures Keep(SortDesc(s, key), key, k) == Keep(s, key, k)
  {
    if s != [] {
      var sortedRest := SortDesc(s[1..], key);
      SortDescStable(s[1..], key, k);
      KeepInsert(s[0], sortedRest, key, k);
      KeepCons(s[0], sortedRest, key, k);
      assert s == [s[0]] + s[1..];
      KeepCons(s[0], s[1..], key, k);
    }
  }

  /** The first element with key `key(s[i])` is `s[i]` when no earlier element has that key. */
  lemma {:induction false} KeepFirst<T>(s: seq<T>, key: T -> real, i: nat)
    requires i < |s|
    requires forall j :: 0 <= j < i ==> key(s[j]) != key(s[i])
    ensures Keep(s, key, key(s[i])) != [] && Keep(s, key, key(s[i]))[0] == s[i]
  {
    if i > 0 {
      KeepFirst(s[1..], key, i - 1);
    }
  }
}

=== FILE: text.dfy ===
/**
 * The JavaScript string operations the ExposureEngine relies on:
 * `trim`, the case-insensitive "NCAA" replacement that normalises level names,
 * `toLowerCase`, `includes` and `parseInt`.
 */
module Text {
  import opened Wrappers

  /** ECMAScript WhiteSpace and LineTerminator: the set both `\s` and `trim` use. */
  predicate IsWhite(c: char) {
    || c == '\t' || c == '\n' || c == '\U{B}' || c == '\U{C}' || c == '\r' || c == ' '
    || c == '\U{A0}' || c == '\U{1680}' || ('\U{2000}' <= c <= '\U{200A}')
    || c == '\U{2028}' || c == '\U{2029}' || c == '\U{202F}' || c == '\U{205F}'
    || c == '\U{3000}' || c == '\U{FEFF}'
  }

  /** The length of the longest all-whitespace prefix of `s`. */
  function LeadingWhite(s: string): (k: nat)
    ensures k <= |s|
    ensures forall i :: 0 <= i < k ==> IsWhite(s[i])
    ensures k < |s| ==> !IsWhite(s[k])
  {
    if s == [] || !IsWhite(s[0]) then 0 else 1 + LeadingWhite(s[1..])
  }

  /** The length of the longest all-whitespace suffix of `s`. */
  function TrailingWhite(s: string): (k: nat)
    ensures k <= |s|
    ensures forall i :: |s| - k <= i < |s| ==> IsWhite(s[i])
    ensures k < |s| ==> !IsWhite(s[|s| - 1 - k])
  {
    if s == [] || !IsWhite(s[|s| - 1]) then 0 else 1 + TrailingWhite(s[..|s| - 1])
  }

  /** `String.prototype.trim`: drop whitespace at both ends. */
  function Trim(s: string): (r: string)
    ensures |r| <= |s|
    ensures r == [] || (!IsWhite(r[0]) && !IsWhite(r[|r| - 1]))
    ensures r == [] <==> forall i :: 0 <= i < |s| ==> IsWhite(s[i])
    ensures (s == [] || (!IsWhite(s[0]) && !IsWhite(s[|s| - 1]))) ==> r == s
    ensures exists a: nat :: IsCore(s, a, |r|) && r == s[a..a + |r|]
  {
    var a := LeadingWhite(s);
    var t := s[a..];
    var b := TrailingWhite(t);
    TrimParts(s, a, b);
    TrimCore(s, a, b);
    t[..|t| - b]
  }

  /** `s[a..a + n]` is what remains of `s` once whitespace is cut from both ends. */
  predicate IsCore(s: string, a: nat, n: nat) {
    a + n <= |s| &&
    (forall i :: 0 <= i < a ==> IsWhite(s[i])) &&
    (forall i :: a + n <= i < |s| ==> IsWhite(s[i]))
  }

  /** The facts `Trim` states, for the cut points it computes. */
  lemma TrimParts(s: string, a: nat, b: nat)
    requires a == LeadingWhite(s) && b == TrailingWhite(s[a..])
    ensures var r := s[a..][..|s| - a - b];
      && (r == [] || (!IsWhite(r[0]) && !IsWhite(r[|r| - 1])))
      && (r == [] <==> forall i :: 0 <= i < |s| ==> IsWhite(s[i]))
      && ((s == [] || (!IsWhite(s[0]) && !IsWhite(s[|s| - 1]))) ==> r == s)
  {
    var t := s[a..];
    var r := t[..|t| - b];
    if a < |s| {
      assert t[0] == s[a];
      assert b < |t|;
      assert r[0] == t[0];
      assert r[|r| - 1] == t[|t| - 1 - b];
    } else {
      assert r == [];
    }
    if s != [] && !IsWhite(s[0]) && !IsWhite(s[|s| - 1]) {
      assert a == 0;
      assert t == s;
      assert b == 0;
    }
  }

  /** What `Trim` keeps is the middle of `s` between its whitespace ends. */
  lemma TrimCore(s: string, a: nat, b: nat)
    requires a == LeadingWhite(s) && b == TrailingWhite(s[a..])
    ensures var r := s[a..][..|s| - a - b];
      IsCore(s, a, |r|) && r == s[a..a + |r|]
  {
    var t := s[a..];
    var r := t[..|t| - b];
    assert |t| == |s| - a && |r| == |t| - b;
    assert r == s[a..a + |r|];
    forall i | a + |r| <= i < |s| ensures IsWhite(s[i]) {
      assert s[i] == t[i - a];
      assert |t| - b <= i - a < |t|;
    }
  }

  /** `Trim` removes nothing more once it has run. */
  lemma TrimIdempotent(s: string)
    ensures Trim(Trim(s)) == Trim(s)
  {
  }

  /** A character the `i` flag (without `u`) matches against `upper`, an ASCII capital. */
  predicate FoldsTo(c: char, upper: char)
    requires 'A' <= upper <= 'Z'
  {
    c == upper || c as int == upper as int + 32
  }

  /** "NCAA", matched case-insensitively, starts at position `i` of `s`. */
  predicate NcaaAt(s: string, i: nat) {
    i + 4 <= |s| && FoldsTo(s[i], 'N') && FoldsTo(s[i + 1], 'C') && FoldsTo(s[i + 2], 'A') && FoldsTo(s[i + 3], 'A')
  }

  /** The leftmost match of `/NCAA/i` at or after `from`. */
  function FindNcaaFrom(s: string, from: nat): (r: Option<nat>)
    requires from <= |s|
    ensures r.Some? ==> from <= r.value && NcaaAt(s, r.value)
    ensures r.Some? ==> forall j :: from <= j < r.value ==> !NcaaAt(s, j)
    ensures r.None? ==> forall j :: from <= j <= |s| ==> !NcaaAt(s, j)
    decreases |s| - from
  {
    if from + 4 > |s| then None
    else if NcaaAt(s, from) then Some(from)
    else FindNcaaFrom(s, from + 1)
  }

  /** The leftmost match of `/NCAA/i` in `s`. */
  function FindNcaa(s: string): (r: Option<nat>)
    ensures r.Some? ==> NcaaAt(s, r.value) && forall j :: 0 <= j < r.value ==> !NcaaAt(s, j)
    ensures r.None? ==> forall j :: 0 <= j <= |s| ==> !NcaaAt(s, j)
  {
    FindNcaaFrom(s, 0)
  }

  /** `s.replace` of the case-insensitive pattern `NCAA\s*`: the first match and the whitespace after it are removed. */
  function StripNcaa(s: string): (r: string)
    ensures FindNcaa(s).None? ==> r == s
    ensures FindNcaa(s).Some? ==> FindNcaa(s).value <= |r| <= |s| - 4 && r[..FindNcaa(s).value] == s[..FindNcaa(s).value]
    ensures FindNcaa(s).Some? ==> exists k: nat :: WhiteRunAfter(s, FindNcaa(s).value, k) && r == s[..FindNcaa(s).value] + s[FindNcaa(s).value + 4 + k..]
  {
    match FindNcaa(s)
    case None => s
    case Some(i) =>
      var rest := s[i + 4..];
      var k := LeadingWhite(rest);
      WhiteRunAfterMatch(s, i);
      s[..i] + rest[k..]
  }

  /** The whitespace `LeadingWhite` counts after a match is the whole run there. */
  lemma WhiteRunAfterMatch(s: string, i: nat)
    requires i + 4 <= |s|
    ensures var rest := s[i + 4..];
      WhiteRunAfter(s, i, LeadingWhite(rest)) && rest[LeadingWhite(rest)..] == s[i + 4 + LeadingWhite(rest)..]
  {
    var rest := s[i + 4..];
    var k := LeadingWhite(rest);
    forall j | i + 4 <= j < i + 4 + k ensures IsWhite(s[j]) {
      assert s[j] == rest[j - i - 4];
    }
    if i + 4 + k < |s| {
      assert s[i + 4 + k] == rest[k];
    }
  }

  /** The `k` characters after a match at `i` are the whole run of whitespace there (the `\s*` of the pattern). */
  predicate WhiteRunAfter(s: string, i: nat, k: nat) {
    i + 4 + k <= |s| &&
    (forall j :: i + 4 <= j < i + 4 + k ==> IsWhite(s[j])) &&
    (i + 4 + k < |s| ==> !IsWhite(s[i + 4 + k]))
  }

  /**
   * The report's and the normaliser's level clean-up (`normalizeLevel`, and
   * the replace-then-trim of the normaliser): "NCAA D1" becomes "D1".
   */
  function NormalizeLevel(level: string): (r: string)
    ensures r == [] || (!IsWhite(r[0]) && !IsWhite(r[|r| - 1]))
    ensures |r| <= |level|
    ensures FindNcaa(level).Some? ==> |r| <= |level| - 4
    ensures FindNcaa(level).None? ==> r == Trim(level)
  {
    Trim(StripNcaa(level))
  }

  /** A blank level normalises to the empty string. */
  lemma NormalizeLevelBlank(level: string)
    requires forall i :: 0 <= i < |level| ==> IsWhite(level[i])
    ensures NormalizeLevel(level) == []
  {
    assert FindNcaa(level).None?;
  }

  /** A name with no "NCAA" in it and no outer whitespace is left as it is. */
  lemma NormalizeLevelKeeps(level: string)
    requires FindNcaa(level).None?
    requires level == [] || (!IsWhite(level[0]) && !IsWhite(level[|level| - 1]))
    ensures NormalizeLevel(level) == level
  {
  }

  /** Whitespace followed by a non-white character: the whitespace is the leading run. */
  lemma {:induction false} LeadingWhiteOf(ws: string, core: string)
    requires forall i :: 0 <= i < |ws| ==> IsWhite(ws[i])
    requires core == [] || !IsWhite(core[0])
    ensures LeadingWhite(ws + core) == |ws|
  {
    if ws != [] {
      assert (ws + core)[1..] == ws[1..] + core;
      LeadingWhiteOf(ws[1..], core);
    } else {
      assert ws + core == core;
    }
  }

  /** Whitespace before a non-white character: the whitespace is the trailing run. */
  lemma {:induction false} TrailingWhiteOf(core: string, ws: string)
    requires forall i :: 0 <= i < |ws| ==> IsWhite(ws[i])
    requires core == [] || !IsWhite(core[|core| - 1])
    ensures TrailingWhite(core + ws) == |ws|
  {
    if ws != [] {
      assert (core + ws)[..|core + ws| - 1] == core + ws[..|ws| - 1];
      TrailingWhiteOf(core, ws[..|ws| - 1]);
    } else {
      assert core + ws == core;
    }
  }

  /** Trimming a name padded with whitespace gives back the name. */
  lemma TrimPadded(ws1: string, core: string, ws2: string)
    requires forall i :: 0 <= i < |ws1| ==> IsWhite(ws1[i])
    requires forall i :: 0 <= i < |ws2| ==> IsWhite(ws2[i])
    requires core == [] || (!IsWhite(core[0]) && !IsWhite(core[|core| - 1]))
    ensures Trim(ws1 + core + ws2) == core
  {
    var s := ws1 + core + ws2;
    if core == [] {
      assert forall i :: 0 <= i < |s| ==> IsWhite(s[i]) by {
        forall i | 0 <= i < |s| ensures IsWhite(s[i]) {
          if i < |ws1| { assert s[i] == ws1[i]; } else { assert s[i] == ws2[i - |ws1|]; }
        }
      }
    } else {
      assert s == ws1 + (core + ws2);
      LeadingWhiteOf(ws1, core + ws2);
      assert s[|ws1|..] == core + ws2;
      TrailingWhiteOf(core, ws2);
      assert (core + ws2)[..|core + ws2| - |ws2|] == core;
    }
  }

  /**
   * The general clean-up: when the first "NCAA" (in any case) follows `pre`
   * and is followed by the whitespace `ws` and then `post`, the match and
   * that whitespace are removed and the rest is trimmed.
   */
  lemma NormalizeLevelRemoves(pre: string, ncaa: string, ws: string, post: string)
    requires |ncaa| == 4
    requires FindNcaa(pre + ncaa + ws + post) == Some(|pre|)
    requires forall i :: 0 <= i < |ws| ==> IsWhite(ws[i])
    requires post == [] || !IsWhite(post[0])
    ensures NormalizeLevel(pre + ncaa + ws + post) == Trim(pre + post)
  {
    var s := pre + ncaa + ws + post;
    var rest := s[|pre| + 4..];
    assert rest == ws + post;
    LeadingWhiteOf(ws, post);
    assert s[..|pre|] == pre;
    assert rest[|ws|..] == post;
  }

  /** A name without "NCAA", padded with whitespace, normalises to the bare name. */
  lemma NormalizeLevelPadded(ws1: string, core: string, ws2: string)
    requires FindNcaa(ws1 + core + ws2).None?
    requires forall i :: 0 <= i < |ws1| ==> IsWhite(ws1[i])
    requires forall i :: 0 <= i < |ws2| ==> IsWhite(ws2[i])
    requires core == [] || (!IsWhite(core[0]) && !IsWhite(core[|core| - 1]))
    ensures NormalizeLevel(ws1 + core + ws2) == core
  {
    TrimPadded(ws1, core, ws2);
  }

  /**
   * A level made of "NCAA" in any case, then whitespace, then a name with no
   * outer whitespace normalises to that name.
   */
  lemma NormalizeLevelStrips(ncaa: string, ws: string, core: string)
    requires |ncaa| == 4 && NcaaAt(ncaa, 0)
    requires forall i :: 0 <= i < |ws| ==> IsWhite(ws[i])
    requires core == [] || (!IsWhite(core[0]) && !IsWhite(core[|core| - 1]))
    ensures NormalizeLevel(ncaa + ws + core) == core
  {
    var s := ncaa + ws + core;
    assert s == [] + ncaa + ws + core;
    assert NcaaAt(s, 0);
    assert FindNcaa(s) == Some(0);
    NormalizeLevelRemoves([], ncaa, ws, core);
    assert [] + core == core;
  }

  /** ASCII `toLowerCase`. */
  function LowerChar(c: char): (r: char)
    ensures 'A' <= c <= 'Z' ==> r as int == c as int + 32
    ensures !('A' <= c <= 'Z') ==> r == c
  {
    if 'A' <= c <= 'Z' then (c as int + 32) as char else c
  }

  /** `String.prototype.toLowerCase`, for the ASCII letters. */
  function ToLower(s: string): (r: string)
    ensures |r| == |s|
    ensures forall i :: 0 <= i < |s| ==> r[i] == LowerChar(s[i])
  {
    seq(|s|, i requires 0 <= i < |s| => LowerChar(s[i]))
  }

  /** `k` occurs in `s` starting at position `i`. */
  predicate OccursAt(s: string, k: string, i: nat) {
    i + |k| <= |s| && s[i..i + |k|] == k
  }

  /** The first position at or after `from` where `k` occurs in `s`. */
  function IndexOfFrom(s: string, k: string, from: nat): (r: Option<nat>)
    requires from <= |s|
    ensures r.Some? ==> from <= r.value && OccursAt(s, k, r.value)
    ensures r.Some? ==> forall j :: from <= j < r.value ==> !OccursAt(s, k, j)
    ensures r.None? ==> forall j :: from <= j <= |s| ==> !OccursAt(s, k, j)
    decreases |s| - from
  {
    if from + |k| > |s| then None
    else if s[from..from + |k|] == k then Some(from)
    else IndexOfFrom(s, k, from + 1)
  }

  /** `s.includes(k)`: `k` occurs somewhere in `s`. */
  function Includes(s: string, k: string): (r: bool)
    ensures r <==> exists i: nat :: OccursAt(s, k, i)
  {
    var found := IndexOfFrom(s, k, 0);
    if found.None? then
      assert forall i: nat :: !OccursAt(s, k, i) by {
        forall i: nat ensures !OccursAt(s, k, i) {
          if i <= |s| {
            assert !OccursAt(s, k, i);
          }
        }
      }
      false
    else true
  }

  /** A string built around `k` contains `k` where it was put. */
  lemma OccursBetween(a: string, k: string, b: string)
    ensures OccursAt(a + k + b, k, |a|)
  {
    assert (a + k + b)[|a|..|a| + |k|] == k;
  }

  /** `includes` holds exactly when there is an occurrence. */
  lemma IncludesAt(s: string, k: string, i: nat)
    requires OccursAt(s, k, i)
    ensures Includes(s, k)
  {
  }

  // ---------------------------------------------------------------------------
  // parseInt(string) with no radix

  predicate IsDecDigit(c: char) { '0' <= c <= '9' }

  predicate IsHexDigit(c: char) { '0' <= c <= '9' || 'a' <= c <= 'f' || 'A' <= c <= 'F' }

  predicate IsDigitIn(c: char, radix: nat) {
    if radix == 16 then IsHexDigit(c) else IsDecDigit(c)
  }

  function DigitValue(c: char): (d: nat)
    ensures IsDecDigit(c) ==> d == c as int - '0' as int
    ensures IsHexDigit(c) ==> d < 16
  {
    if '0' <= c <= '9' then c as int - '0' as int
    else if 'a' <= c <= 'f' then c as int - 'a' as int + 10
    else if 'A' <= c <= 'F' then c as int - 'A' as int + 10
    else 0
  }

  /** The length of the longest prefix of `s` made of digits of `radix`. */
  function DigitPrefix(s: string, radix: nat): (k: nat)
    ensures k <= |s|
    ensures forall i :: 0 <= i < k ==> IsDigitIn(s[i], radix)
    ensures k < |s| ==> !IsDigitIn(s[k], radix)
  {
    if s == [] || !IsDigitIn(s[0], radix) then 0 else 1 + DigitPrefix(s[1..], radix)
  }

  /** The number a string of digits denotes in `radix`, most significant digit first. */
  function DigitsValue(ds: string, radix: nat): nat {
    if ds == [] then 0 else DigitsValue(ds[..|ds| - 1], radix) * radix + DigitValue(ds[|ds| - 1])
  }

  /** What `parseInt` reads before the digits: the sign, and the radix a "0x"/"0X" prefix selects. */
  datatype NumberPrefix = NumberPrefix(negative: bool, radix: nat, body: string)

  /** Sign and radix of `t`, the text after the leading whitespace; `body` is the rest. */
  function ReadPrefix(t: string): (r: NumberPrefix)
    ensures r.radix == 10 || r.radix == 16
    ensures |r.body| <= |t| && r.body == t[|t| - |r.body|..]
  {
    var negative := |t| > 0 && t[0] == '-';
    var u := if |t| > 0 && (t[0] == '-' || t[0] == '+') then t[1..] else t;
    var hex := |u| >= 2 && u[0] == '0' && (u[1] == 'x' || u[1] == 'X');
    NumberPrefix(negative, if hex then 16 else 10, if hex then u[2..] else u)
  }

  /**
   * `parseInt(s)`: skip leading whitespace, take an optional sign, read hex
   * after a "0x"/"0X" prefix and decimal otherwise, and stop at the first
   * non-digit. `None` stands for NaN (no digit was read).
   */
  function ParseInt(s: string): (r: Option<int>)
    ensures r.Some? ==> exists i :: 0 <= i < |s| && IsHexDigit(s[i])
  {
    var t := s[LeadingWhite(s)..];
    var p := ReadPrefix(t);
    var n := DigitPrefix(p.body, p.radix);
    if n == 0 then None
    else
      assert IsDigitIn(p.body[0], p.radix);
      assert p.body[0] == s[|s| - |p.body|];
      var v := DigitsValue(p.body[..n], p.radix);
      Some(if p.negative then -(v as int) else v as int)
  }

  /**
   * The decimal digits of `n`. `String(n)` writes a non-negative integer
   * this way only below 10^21; from there on it uses exponent form, which
   * is not modelled.
   */
  function NatToString(n: nat): (s: string)
    ensures |s| > 0
    ensures forall i :: 0 <= i < |s| ==> IsDecDigit(s[i])
  {
    if n < 10 then [('0' as int + n) as char]
    else NatToString(n / 10) + [('0' as int + n % 10) as char]
  }

  /** Decimal digits read back give the number they were written from. */
  lemma {:induction false} DigitsValueOfNatToString(n: nat)
    ensures DigitsValue(NatToString(n), 10) == n
  {
    var s := NatToString(n);
    if n >= 10 {
      DigitsValueOfNatToString(n / 10);
      assert s[..|s| - 1] == NatToString(n / 10);
    }
  }

  /** A string made only of digits of `radix` is read to its end. */
  lemma {:induction false} DigitPrefixAll(s: string, radix: nat)
    requires forall i :: 0 <= i < |s| ==> IsDigitIn(s[i], radix)
    ensures DigitPrefix(s, radix) == |s|
  {
    if s != [] {
      assert forall i :: 0 <= i < |s[1..]| ==> s[1..][i] == s[i + 1];
      DigitPrefixAll(s[1..], radix);
    }
  }

  /** Decimal digits have no sign and no "0x" prefix, and start after no whitespace. */
  lemma DecimalPrefix(s: string)
    requires |s| > 0 && forall i :: 0 <= i < |s| ==> IsDecDigit(s[i])
    ensures LeadingWhite(s) == 0
    ensures ReadPrefix(s) == NumberPrefix(false, 10, s)
  {
    assert IsDecDigit(s[0]);
    assert !IsWhite(s[0]);
    assert s[0] != '-' && s[0] != '+';
    if |s| >= 2 {
      assert IsDecDigit(s[1]);
    }
  }

  /**
   * Decimal text of `n` parses back to exactly `n`. The model's integers are
   * exact; JavaScript's `parseInt` returns a double, so in the program this
   * round trip is exact only below 2^53.
   */
  lemma ParseIntNatToString(n: nat)
    ensures ParseInt(NatToString(n)) == Some(n)
  {
    var s := NatToString(n);
    DecimalPrefix(s);
    assert s[0..] == s;
    DigitPrefixAll(s, 10);
    assert s[..|s|] == s;
    DigitsValueOfNatToString(n);
  }

  /** An empty or all-whitespace field, as a cleared number input gives, parses to NaN. */
  lemma ParseIntEmpty(s: string)
    requires forall i :: 0 <= i < |s| ==> IsWhite(s[i])
    ensures ParseInt(s) == None
  {
    assert forall i :: 0 <= i < |s| ==> !IsHexDigit(s[i]);
  }
}

=== FILE: types.dfy ===
/**
 * The records of the ExposureEngine (types.ts) and its constant tables
 * (constants.ts, and the level table of services/geminiService.ts).
 */
module Types {
  import opened Wrappers

  /** The five college-soccer division tiers. */
  datatype CollegeLevel = D1 | D2 | D3 | NAIA | JUCO {
    /** The level's name as it appears in reports and in the model's answer. */
    function Name(): (r: string)
      ensures |r| >= 2
    {
      match this
      case D1 => "D1"
      case D2 => "D2"
      case D3 => "D3"
      case NAIA => "NAIA"
      case JUCO => "JUCO"
    }
  }

  /** The level whose name is exactly `s`, if any. */
  function ParseLevel(s: string): (r: Option<CollegeLevel>)
    ensures r.Some? ==> r.value.Name() == s
    ensures forall l: CollegeLevel :: l.Name() == s ==> r == Some(l)
  {
    if s == "D1" then Some(D1)
    else if s == "D2" then Some(D2)
    else if s == "D3" then Some(D3)
    else if s == "NAIA" then Some(NAIA)
    else if s == "JUCO" then Some(JUCO)
    else None
  }

  /** LEVELS, the table every normalised result must cover, in report order. */
  const LEVELS: seq<CollegeLevel> := [D1, D2, D3, NAIA, JUCO]

  /** The names of LEVELS, in the same order. */
  const LEVEL_NAMES: seq<string> := ["D1", "D2", "D3", "NAIA", "JUCO"]

  /** LEVEL_NAMES lists the names of LEVELS, position by position. */
  lemma LevelNamesOfLevels()
    ensures |LEVEL_NAMES| == |LEVELS|
    ensures forall i :: 0 <= i < |LEVELS| ==> LEVEL_NAMES[i] == LEVELS[i].Name()
  {
  }

  datatype YouthLeague =
    | MLS_NEXT | ECNL | Girls_Academy | USYS_National_League | ECNL_RL
    | High_School | Elite_Local | Other

  /** LEAGUES, in the order the league picker lists them. */
  const LEAGUES: seq<YouthLeague> :=
    [MLS_NEXT, ECNL, Girls_Academy, ECNL_RL, USYS_National_League, High_School, Elite_Local, Other]

  /** The league picker offers every league, each once. */
  lemma LeaguesComplete()
    ensures forall l: YouthLeague :: l in LEAGUES
    ensures forall i, j :: 0 <= i < j < |LEAGUES| ==> LEAGUES[i] != LEAGUES[j]
  {
    forall l: YouthLeague ensures l in LEAGUES {
      match l
      case MLS_NEXT => assert LEAGUES[0] == l;
      case ECNL => assert LEAGUES[1] == l;
      case Girls_Academy => assert LEAGUES[2] == l;
      case ECNL_RL => assert LEAGUES[3] == l;
      case USYS_National_League => assert LEAGUES[4] == l;
      case High_School => assert LEAGUES[5] == l;
      case Elite_Local => assert LEAGUES[6] == l;
      case Other => assert LEAGUES[7] == l;
    }
  }

  /**
   * A playing position. The union type declares GK, CB, FB, WB, DM, CM, AM,
   * WING, 9 and Utility, but the form offers the names in POSITIONS, which
   * differ; a position is therefore kept as its string.
   */
  type Position = string

  /** POSITIONS, the names the form offers. */
  const POSITIONS: seq<Position> := ["GK", "CB", "LB", "RB", "CDM", "CM", "CAM", "LW", "RW", "ST"]

  datatype Gender = Male | Female

  datatype ExperienceLevel =
    | Youth_Club_Only | High_School_Varsity | Adult_Amateur_League
    | Semi_Pro_UPSL_NPSL_WPSL | International_Academy_U19 | Pro_Academy_Reserve

  datatype MainRole = Key_Starter | Rotation | Bench | Injured

  datatype Foot = Right | Left | Both

  datatype SeasonStat = SeasonStat(
    year: int,
    teamName: string,
    league: seq<YouthLeague>,
    minutesPlayedPercent: int,
    mainRole: MainRole,
    goals: int,
    assists: int,
    honors: string)

  datatype AcademicProfile = AcademicProfile(graduationYear: int, gpa: real, testScore: Option<string>)

  datatype EventType = Showcase | ID_Camp | ODP | HS_Playoffs | OtherEvent

  datatype ExposureEvent = ExposureEvent(name: string, eventType: EventType, collegesNoted: string)

  datatype AthleticProfile = AthleticProfile(
    speed: string, strength: string, endurance: string,
    workRate: string, technical: string, tactical: string)

  datatype PlayerProfile = PlayerProfile(
    firstName: string,
    lastName: string,
    gender: Gender,
    dateOfBirth: string,
    citizenship: string,
    experienceLevel: ExperienceLevel,
    position: Position,
    secondaryPositions: seq<Position>,
    dominantFoot: Foot,
    height: string,
    gradYear: int,
    state: string,
    seasons: seq<SeasonStat>,
    academics: AcademicProfile,
    athleticProfile: AthleticProfile,
    events: seq<ExposureEvent>,
    videoLink: bool,
    coachesContacted: int,
    responsesReceived: int,
    offersReceived: int)

  /**
   * One visibility estimate. The level stays a string: it is whatever the
   * language model wrote, and the report normalises it before use.
   */
  datatype VisibilityScore = VisibilityScore(level: string, visibilityPercent: real, notes: Option<string>)

  /** The five readiness dimensions, the keys of the readiness object. */
  datatype ReadinessKey = Athletic | Technical | Tactical | Academic | Market

  const READINESS_KEYS: seq<ReadinessKey> := [Athletic, Technical, Tactical, Academic, Market]

  datatype Severity = SevLow | SevMedium | SevHigh

  datatype RiskFlag = RiskFlag(category: string, message: string, severity: Severity)

  datatype Timeframe = Next_30_Days | Next_90_Days | Next_12_Months

  /** An action item; `impact` is kept as the string the model wrote. */
  datatype ActionItem = ActionItem(timeframe: Timeframe, description: string, impact: string)

  datatype FunnelAnalysis = FunnelAnalysis(stage: string, conversionRate: string, bottleneck: string, advice: string)

  datatype BenchmarkMetric = BenchmarkMetric(category: string, userScore: real, d1Average: real, d3Average: real, feedback: string)

  datatype AnalysisResult = AnalysisResult(
    visibilityScores: seq<VisibilityScore>,
    readinessScore: map<ReadinessKey, real>,
    keyStrengths: seq<string>,
    keyRisks: seq<RiskFlag>,
    actionPlan: seq<ActionItem>,
    plainLanguageSummary: string,
    coachShortEvaluation: string,
    funnelAnalysis: FunnelAnalysis,
    benchmarkAnalysis: seq<BenchmarkMetric>)
}

=== FILE: wrappers.dfy ===
/** Option and Result, for the source's `undefined`, `null` and error returns. */
module Wrappers {

  datatype Option<+T> = None | Some(value: T) {
    /** The wrapped value, or `default` when absent (JavaScript's `x ?? d`). */
    function GetOr(default: T): T {
      match this
      case Some(v) => v
      case None => default
    }
  }

  datatype Result<+R, +E> = Ok(value: R) | Err(error: E)
}
